=== FILE: README.md ===
# Block-template registry and REST rules — a Dafny model

This project models the template-registration core of the Gutenberg plugin
for WordPress 6.6:

- the **block-template registry** (`WP_Block_Templates_Registry`): an
  insertion-ordered store of plugin-declared templates of two types,
  `wp_template` and `wp_template_part`, keyed by (type, namespaced name);
- the decision rules of the **templates REST controller** that read from it:
  original-source classification, author text, the fallback-hierarchy loop,
  source-tagged id resolution and the clone-then-patch serialisation of
  plugin templates;
- the template check of the **posts REST controller**;
- the two **compatibility hooks**: the template filter through which a
  registered `wp_template` takes over rendering, and the Appearance submenu
  rewrite for classic themes.

The registry singleton is an explicit immutable value (`Registry`, a sequence
of `(type, name, template)` entries); `Register` returns its verdict paired
with the next state. Every WordPress or PHP call the core makes
(`get_stylesheet`, `file_get_contents`, `wp_get_theme`, `get_plugins`,
`plugin_basename`/`sanitize_text_field`, `get_bloginfo`, `get_user_by`,
`get_block_file_template`, `get_block_template`, `resolve_block_template`,
`get_page_template_slug`, `gutenberg_get_block_templates`, the parent
serializer, `wp_is_block_theme`, `ABSPATH`/`WPINC`) is a parameter or a field
of a host datatype (`BlockTemplatesRegistry.Host`,
`TemplatesController.Collaborators`), so the model is pure.

Layout, one module per file:

- `wrappers.dfy` (`Wrappers`): `Option` (PHP `null`) and `Result`
- `wp.dfy` (`Wp`): PHP `empty()` on strings, `preg_match('/[A-Z]+/')`, `implode`, `WP_Error`
- `templates.dfy` (`Templates`): `WP_Block_Template` and the two template types
- `name_pattern.dfy` (`NamePattern`): the name regex as an automaton, with its `$` behaviour
- `registry.dfy` (`BlockTemplatesRegistry`): `register`, `get_by_slug`, `get_registered`, `get_all_registered`, `get_by_query`, `is_registered`
- `registry_properties.dfy` (`RegistryProperties`): lemmas about registration and queries
- `id_parts.dfy` (`IdParts`): `explode('//', $id)` and the slug `list()` binds
- `templates_controller.dfy` (`TemplatesController`): classification, author text, fallback loop, `get_item`, `prepare_item_for_response`
- `controller_properties.dfy` (`TemplatesControllerProperties`): lemmas linking the controller to the registry
- `posts_controller.dfy` (`PostsController`): `check_template`
- `compat.dfy` (`Compat`): the `*_template` filter closure and the submenu hook

Faithfully modelled quirks:

- The PCRE `$` in the name pattern also matches before a final `"\n"`, so
  `ns//slug\n` is accepted (`NamePattern.Matches`, `TrailingNewlineAccepted`).
  No precondition excludes newlines.
- `get_by_query` without an `area` compares template-part areas strictly
  against `null`, so every part whose area is a string is dropped, including
  every part the registry built itself.
- `get_item` for `source=plugin` splits the id on every `//` and takes the
  second piece, not the text after the first separator; an id without a
  separator binds `null`, and since every template here has a string slug
  (see "Left out") it is not found.
- The plugin author text passes `"$plugin/$plugin.php"` to
  `plugin_basename( sanitize_text_field( … ) )`; for a registered template
  without a `plugin` argument the plugin is `''`, so that string is `"/.php"`.
- `check_template` compares `request['template']` (not its `$template`
  argument) with the allowed slugs, and its error message lists the allowed
  array's keys, not the slugs.
- `register` reads `->name` from a pre-built template. The
  `WP_Block_Template` class is outside the modelled files, so its `name` is
  treated as an optional property, and a template without one is rejected as
  a non-string name.

Three consequences of the code that are easy to misread: the plugin id is
split on every `//`; an absent `area` still filters template parts; and a
pre-built template needs a `name` to be registered.

## Model

| member | source | states |
|---|---|---|
| BlockTemplatesRegistry.Register | lib/class-wp-block-templates-registry.php:15-95 | a failed call leaves the registry unchanged; a success only happens for a key not yet registered, after which `is_registered` holds and `get_registered` returns exactly the returned template; a pre-built template is stored as given, and a name registration stores the template built from the arguments |
| BlockTemplatesRegistry.RegisteredName | lib/class-wp-block-templates-registry.php:17-21 | the name checked is the string given, or the `name` a pre-built template carries (absent names fail the string check) |
| BlockTemplatesRegistry.BuildTemplate | lib/class-wp-block-templates-registry.php:71-90 | a built template has source and origin "plugin", status "publish", a theme file, is not custom, has no author, id stylesheet + "//" + slug; it carries the given `post_types` (read by the `post_type` filter), and the given title, description and plugin, each "" when absent; its area is "" unless it is a template part with an area argument |
| BlockTemplatesRegistry.FindEntry | lib/class-wp-block-templates-registry.php:227 | the index found holds the key and no earlier entry does; none is found exactly when no entry has the key |
| BlockTemplatesRegistry.IsRegistered | lib/class-wp-block-templates-registry.php:217-228 | true exactly when the type is one of the two template types and some entry has the (type, name) key |
| BlockTemplatesRegistry.GetRegistered | lib/class-wp-block-templates-registry.php:122-137 | `false` exactly for an invalid type; a template exactly when the key is registered, and then it is the one stored under that key |
| BlockTemplatesRegistry.OfType | lib/class-wp-block-templates-registry.php:157 | the per-type list contains exactly the (name, template) pairs stored under that type |
| BlockTemplatesRegistry.GetAllRegistered | lib/class-wp-block-templates-registry.php:147-158 | `false` exactly for an invalid type; otherwise exactly the pairs registered under the type |
| BlockTemplatesRegistry.FirstSlugIndex | lib/class-wp-block-templates-registry.php:104-108 | the index found has the slug and no earlier pair does; none is found exactly when no pair has it |
| BlockTemplatesRegistry.GetBySlug | lib/class-wp-block-templates-registry.php:97-111 | null for an invalid type; a found template has the requested slug and is registered under the requested type |
| BlockTemplatesRegistry.GetBySlugFirstMatch | lib/class-wp-block-templates-registry.php:97-111 | `get_by_slug` finds nothing exactly when no template of the type has the slug, and otherwise the earliest registered one with it |
| BlockTemplatesRegistry.Select | lib/class-wp-block-templates-registry.php:187-203 | a pair survives the filter loop exactly when it was in the input and passes every filter |
| BlockTemplatesRegistry.Keeps | lib/class-wp-block-templates-registry.php:188-202 | the four filter tests: slug in `slug__in`, slug not in `slug__not_in`, strict area equality for template parts, and the post type among `post_types` when a post type is asked for |
| BlockTemplatesRegistry.GetByQuery | lib/class-wp-block-templates-registry.php:175-206 | the result is empty for an invalid type and otherwise holds exactly the registered pairs of the type that pass all filters; it is the filter loop applied to `get_all_registered`, so with `SelectAppend` it keeps registration order |
| RegistryProperties.SelectAppend | lib/class-wp-block-templates-registry.php:187-203 | filtering a concatenation gives the concatenation of the filtered parts, so the loop keeps order and never repeats a pair |
| RegistryProperties.SelectSingle | lib/class-wp-block-templates-registry.php:188-202 | a single pair is kept exactly when it passes every filter |
| RegistryProperties.RegisterExtendsQuery | lib/class-wp-block-templates-registry.php:92 | after a registration every query of its type returns the earlier result followed by the new pair when it passes the filters |
| NamePattern.MatchesExactlyIffNamespaced | lib/class-wp-block-templates-registry.php:51-52 | the automaton accepts a name exactly when it is a `[a-z0-9-]+` namespace, "//", and a `[a-z0-9-]+` slug |
| NamePattern.Matches | lib/class-wp-block-templates-registry.php:51-52 | what `preg_match` reports: an exact match, or an exact match followed by one final "\n", which the unanchored `$` lets through |
| NamePattern.AcceptedNameShape | lib/class-wp-block-templates-registry.php:51-52 | every exactly-matching name splits into two non-empty segments joined by "//", and those are its only slashes |
| NamePattern.MatchedNameShape | lib/class-wp-block-templates-registry.php:51-52 | every name the check accepts is a namespace segment, "//", and a slug segment, followed by one newline exactly when the name does not match exactly |
| NamePattern.NamespacedNameMatches | lib/class-wp-block-templates-registry.php:51-52 | conversely every namespace//slug of segments matches |
| NamePattern.TrailingNewlineAccepted | lib/class-wp-block-templates-registry.php:51-52 | a valid name followed by "\n" passes the check although it does not match exactly |
| NamePattern.AcceptedNameIsLowercase | lib/class-wp-block-templates-registry.php:42-59 | no name the pattern accepts has an uppercase letter, so the uppercase check only chooses the diagnostic |
| RegistryProperties.UppercaseNameRejected | lib/class-wp-block-templates-registry.php:33-49 | a name with an uppercase letter is rejected, for the type if the type is invalid and for the case otherwise, and the registry is unchanged |
| RegistryProperties.MalformedNameRejected | lib/class-wp-block-templates-registry.php:51-59 | a lowercase name without the namespace//slug shape (even after dropping one trailing newline) is rejected with the namespace diagnostic and no change |
| RegistryProperties.RegisterSucceedsIff | lib/class-wp-block-templates-registry.php:24-69 | registration succeeds exactly for a string name, a valid type, a name the pattern accepts and a free key |
| RegistryProperties.PrebuiltWithoutNameRejected | lib/class-wp-block-templates-registry.php:18-31 | a pre-built template without a name property fails the string check and changes nothing |
| RegistryProperties.EarlyRejections | lib/class-wp-block-templates-registry.php:24-40 | anything other than a name fails with the string diagnostic, and a name with an unknown type fails with the type diagnostic, before any other check; the registry is unchanged |
| RegistryProperties.DuplicateRejected | lib/class-wp-block-templates-registry.php:61-69 | registering the same key again fails as a duplicate, leaves the state as it was, and the first template stays stored |
| RegistryProperties.RegisterFrame | lib/class-wp-block-templates-registry.php:92 | registration changes no other key's `is_registered` or `get_registered`, including the same name under the other type |
| RegistryProperties.FindEntryAppend | lib/class-wp-block-templates-registry.php:92 | appending an entry with another key does not change the lookup of a key |
| RegistryProperties.RegisterAppends | lib/class-wp-block-templates-registry.php:92 | a registration appends its pair at the end of its type's list and leaves the other type's list unchanged |
| RegistryProperties.FirstSlugIndexAppend | lib/class-wp-block-templates-registry.php:104-108 | pairs appended after a slug's first occurrence do not move it |
| RegistryProperties.GetBySlugStable | lib/class-wp-block-templates-registry.php:104-108 | once a slug is found, later registrations do not change which template `get_by_slug` returns |
| RegistryProperties.GetBySlugFreshSlug | lib/class-wp-block-templates-registry.php:97-111 | a template registered with a slug no earlier template of its type has is the one `get_by_slug` then returns |
| RegistryProperties.RegisterPreservesWf | lib/class-wp-block-templates-registry.php:61-92 | registration keeps keys unique, types valid and stored names accepted by the pattern |
| RegistryProperties.AppendFreshPreservesWf | lib/class-wp-block-templates-registry.php:61-94 | storing a valid entry under a key no entry holds keeps keys unique, types valid and names accepted |
| RegistryProperties.RegisteredNamesAreNamespaced | lib/class-wp-block-templates-registry.php:51-59 | in a registry built by registration every stored name is namespace//slug, up to one trailing newline |
| RegistryProperties.EmptyRegistryWf | lib/class-wp-block-templates-registry.php:9-12 | the registry before any registration is well-formed, the base case for registries built by registration |
| RegistryProperties.AreaLessPartQueryDropsStringAreas | lib/class-wp-block-templates-registry.php:184-198 | a template-part query without an area returns only parts whose area is null |
| RegistryProperties.BuiltPartNeverQueriedWithoutArea | lib/class-wp-block-templates-registry.php:184-198 | a template part built by the registry is never returned by a query without an area |
| RegistryProperties.QueryFiltersHold | lib/class-wp-block-templates-registry.php:187-203 | every returned template avoids `slug__not_in`, is in a non-empty `slug__in`, lists a non-empty `post_type`, and for parts has the queried area |
| RegistryProperties.UnfilteredQueryReturnsAll | lib/class-wp-block-templates-registry.php:175-206 | a `wp_template` query without filters returns exactly `get_all_registered`, same pairs in the same order |
| RegistryProperties.SelectAllKept | lib/class-wp-block-templates-registry.php:187-203 | when every pair passes the filters the loop unsets nothing and returns its input |
| RegistryProperties.RegisteredPostTypeSurvivesQuery | lib/class-wp-block-templates-registry.php:88 | a template registered with `post_types` listing a post type is the last result of a `wp_template` query filtered on that post type |
| IdParts.FirstSeparatorFrom | lib/compat/wordpress-6.6/class-gutenberg-rest-templates-controller-6-6.php:131 | the index found starts a "//" with none between the start and it; none is found exactly when there is no separator |
| IdParts.Explode | lib/compat/wordpress-6.6/class-gutenberg-rest-templates-controller-6-6.php:131 | `explode('//', …)` yields at least one piece; with `ImplodeExplode` and `PiecesHaveNoSeparator` it is the split at every separator |
| IdParts.PluginSlug | lib/compat/wordpress-6.6/class-gutenberg-rest-templates-controller-6-6.php:131 | the bound slug is null exactly when the id has no "//" |
| IdParts.ImplodeExplode | lib/compat/wordpress-6.6/class-gutenberg-rest-templates-controller-6-6.php:131 | joining the pieces of `explode('//', id)` with "//" gives the id back |
| IdParts.PiecesHaveNoSeparator | lib/compat/wordpress-6.6/class-gutenberg-rest-templates-controller-6-6.php:131 | no piece of the split contains "//" |
| IdParts.ExplodeNamespaced | lib/compat/wordpress-6.6/class-gutenberg-rest-templates-controller-6-6.php:131 | an id whose namespace has no slash splits into that namespace followed by the pieces of the rest |
| IdParts.PluginSlugIgnoresNamespace | lib/compat/wordpress-6.6/class-gutenberg-rest-templates-controller-6-6.php:130-132 | the slug bound does not depend on the namespace, and for namespace//slug is the slug itself |
| IdParts.ThreePieceId | lib/compat/wordpress-6.6/class-gutenberg-rest-templates-controller-6-6.php:131 | "a//b//c" splits into three pieces and binds slug "b" |
| TemplatesController.ClassifyOriginalSource | lib/compat/wordpress-6.6/class-gutenberg-rest-templates-controller-6-6.php:200-238 | other types are "user"; "theme" exactly when the theme rule applies; "plugin" exactly for origin plugin outside the theme rule; "site" exactly for a non-plugin custom template without theme file or author; everything else is "user" |
| TemplatesController.AuthorText | lib/compat/wordpress-6.6/class-gutenberg-rest-templates-controller-6-6.php:246-266 | theme: the theme's name, or its id when that name is empty; plugin: the `get_plugins` name under the "$plugin/$plugin.php" key, or the theme id; site: the blog name; user: the display name, or "Unknown author" for an unresolvable id |
| TemplatesController.PluginKey | lib/compat/wordpress-6.6/class-gutenberg-rest-templates-controller-6-6.php:254-255 | the `get_plugins()` key: the basename of "$plugin/$plugin.php" when the template has a plugin, otherwise of "$theme.php" |
| TemplatesController.TemplateFallback | lib/compat/wordpress-6.6/class-gutenberg-rest-templates-controller-6-6.php:108-114 | the loop runs at least once and at most max(1, hierarchy length) times; it returns the resolution of the first suffix with content, or of the last suffix tried once the hierarchy is exhausted |
| TemplatesController.LookupItem | lib/compat/wordpress-6.6/class-gutenberg-rest-templates-controller-6-6.php:127-135 | a plugin lookup finds only a template registered under the post type whose slug is the id's second "//" piece, and nothing for an id without "//", and is exactly `get_by_slug` of that piece otherwise; the other sources go to the file and merged lookups |
| TemplatesController.SerializerInput | lib/compat/wordpress-6.6/class-gutenberg-rest-templates-controller-6-6.php:156-162 | the parent serializer never sees origin "plugin"; its input differs from the item at most in origin, which is "theme" for a plugin item |
| TemplatesController.PrepareItem | lib/compat/wordpress-6.6/class-gutenberg-rest-templates-controller-6-6.php:151-176 | non-plugin items are the parent's output unchanged; for plugin items the requested origin is "plugin", author text and original source come from the original item (original source "plugin"), and every other field is the parent's |
| TemplatesController.GetItem | lib/compat/wordpress-6.6/class-gutenberg-rest-templates-controller-6-6.php:127-142 | the request fails exactly when the lookup finds nothing, and then with `rest_template_not_found` and status 404 |
| TemplatesControllerProperties.ClassificationExamples | lib/compat/wordpress-6.6/class-gutenberg-rest-templates-controller-6-6.php:207-237 | four sample templates classify as theme, plugin, site and user |
| TemplatesControllerProperties.CloneWouldReportTheme | lib/compat/wordpress-6.6/class-gutenberg-rest-templates-controller-6-6.php:159-174 | the clone of a plugin template with a theme file classifies as theme while the item classifies as plugin, which is why the fields are patched |
| TemplatesControllerProperties.RegisteredTemplateAuthorText | lib/compat/wordpress-6.6/class-gutenberg-rest-templates-controller-6-6.php:252-256 | a registry-built template is a plugin template whose author text is looked up under "$plugin/$plugin.php" ("/.php" without a plugin argument), else the stylesheet |
| TemplatesControllerProperties.RegisteredTemplateResponse | lib/compat/wordpress-6.6/class-gutenberg-rest-templates-controller-6-6.php:156-174 | a registry-built template is serialized as origin "theme" but reported with origin and original source "plugin" |
| TemplatesControllerProperties.PluginItemIgnoresNamespace | lib/compat/wordpress-6.6/class-gutenberg-rest-templates-controller-6-6.php:130-132 | two plugin ids differing only in a slash-free namespace resolve to the same template, the registry's `get_by_slug` of the slug |
| TemplatesControllerProperties.RegisteredNameIdResolvesBySlug | lib/compat/wordpress-6.6/class-gutenberg-rest-templates-controller-6-6.php:130-132 | a plugin id equal to any name `register` accepts resolves through `get_by_slug` of the text after its "//": the slug segment for an exactly matching name, the slug with its newline for a name accepted through the trailing-newline quirk |
| TemplatesControllerProperties.SegmentsResolve | lib/compat/wordpress-6.6/class-gutenberg-rest-templates-controller-6-6.php:130-132 | a plugin id `ns//rest` with segment pieces resolves by `get_by_slug` of `rest` |
| TemplatesControllerProperties.MissIsNotFound | lib/compat/wordpress-6.6/class-gutenberg-rest-templates-controller-6-6.php:137-139 | a miss on any branch is the 404 `rest_template_not_found` error |
| PostsController.CurrentTemplate | lib/compat/wordpress-6.6/class-gutenberg-rest-posts-controller-6-6.php:31-35 | without a (truthy) id the current template is ""; with one it is `get_page_template_slug` of that id |
| PostsController.AnySlugMatches | lib/compat/wordpress-6.6/class-gutenberg-rest-posts-controller-6-6.php:45-49 | true exactly when the requested template is set and equals some allowed template's slug |
| PostsController.CheckTemplate | lib/compat/wordpress-6.6/class-gutenberg-rest-posts-controller-6-6.php:26-67 | accepted exactly for a falsy template, the post's current template, a requested template equal to an allowed slug, or a key of the allowed array; otherwise `rest_invalid_param` listing the keys |
| PostsController.InvalidTemplateError | lib/compat/wordpress-6.6/class-gutenberg-rest-posts-controller-6-6.php:55-66 | the `rest_invalid_param` error with message "template is not one of " followed by the allowed array's keys joined by ", " and a final "." |
| PostsController.NoIdCreatesNoCurrentTemplate | lib/compat/wordpress-6.6/class-gutenberg-rest-posts-controller-6-6.php:31-53 | without a post id a non-falsy template is accepted only through the allowed templates |
| PostsController.MessageListsKeys | lib/compat/wordpress-6.6/class-gutenberg-rest-posts-controller-6-6.php:55-66 | for a list holding "single" under key "0" the message reads "template is not one of 0." |
| Compat.FirstRegistered | lib/compat/wordpress-6.6/compat.php:69-76 | the index found is the first slug, in order, that the lookup accepts (the filter passes `get_by_slug( 'wp_template', … )`); none exactly when no slug is accepted |
| Compat.TemplateFilter | lib/compat/wordpress-6.6/compat.php:63-80 | with no registered slug the template and globals pass through; otherwise the canvas path is returned and the globals hold the id and content of the template found for the first registered slug |
| Compat.FirstRegisteredPrefix | lib/compat/wordpress-6.6/compat.php:69-76 | slugs appended after an accepted one do not change the first hit |
| Compat.LaterSlugsNotConsulted | lib/compat/wordpress-6.6/compat.php:69-75 | slugs after the first registered one do not affect the result |
| Compat.RegisteredTemplateTakesOver | lib/compat/wordpress-6.6/compat.php:69-75 | after registering a `wp_template` with a new slug, filtering that slug selects the canvas with id stylesheet//slug and the template's content |
| Compat.SurvivesShift | lib/compat/wordpress-6.6/compat.php:23-29 | an entry survives a list exactly when it is the kept head or survives the tail |
| Compat.Repoint | lib/compat/wordpress-6.6/compat.php:24-25 | only the link of an entry changes; afterwards it is never the legacy patterns link; it is the template-parts link exactly when it was; entries without the legacy link are unchanged |
| Compat.CountLinkAppend | lib/compat/wordpress-6.6/compat.php:26-27 | the number of entries with a link is additive over concatenation, and zero for an empty list |
| Compat.CountLinkSingle | lib/compat/wordpress-6.6/compat.php:26-27 | a single entry counts once exactly when it has the link |
| Compat.RewriteEntries | lib/compat/wordpress-6.6/compat.php:23-29 | the rewritten list is shorter by exactly the number of template-parts entries |
| Compat.RewriteEntriesLinks | lib/compat/wordpress-6.6/compat.php:24-28 | no template-parts or legacy patterns link is left after the rewrite |
| Compat.RewriteEntriesSurvivors | lib/compat/wordpress-6.6/compat.php:23-29 | an entry is in the rewritten list exactly when some entry of the input other than the template-parts entry becomes it, re-pointed if it was the legacy patterns entry |
| Compat.ChangePatternsSubmenu | lib/compat/wordpress-6.6/compat.php:15-31 | block themes and empty Appearance submenus are left alone; other menus are never touched; otherwise the Appearance list is rewritten entry by entry: no template-parts link remains, the legacy patterns entry now links to `site-editor.php?path=/patterns`, and all other entries stay |
| Compat.RewriteEntriesAppend | lib/compat/wordpress-6.6/compat.php:23-29 | the rewrite of a concatenation is the concatenation of the rewrites, so surviving entries keep their order |
| Compat.RewriteSingleEntry | lib/compat/wordpress-6.6/compat.php:24-28 | a template-parts entry is dropped, the legacy patterns entry is re-pointed to the site editor, and any other entry is kept unchanged |
| Compat.RewriteIdempotent | lib/compat/wordpress-6.6/compat.php:23-29 | rewriting a rewritten list changes nothing |
| Compat.SubmenuChangeIdempotent | lib/compat/wordpress-6.6/compat.php:15-31 | running the submenu hook twice equals running it once |

## Left out

- Permission checks (`get_items_permissions_check`, `get_item_permissions_check`): they depend on the current user and role APIs.
- `get_items` and the merge in `gutenberg_get_block_templates`: an external merge engine; only its output appears, as the allowed templates of `check_template`.
- `prepare_links`, link and action decoration, `rest_ensure_response` and `prepare_response_for_collection`: REST transport; `PrepareItem` returns the response data only.
- `get_template_fallback` builds the hierarchy with `gutenberg_get_template_hierarchy` and serializes the result; the model takes the hierarchy as input and returns the loop's template.
- The `register_post_type` calls in the posts controller file: static configuration.
- `packages/edit-site/src/components/header-edit-mode/index.js` (a UI component) and `packages/interactivity/src/utils/warn.ts` (a logging helper).
- The `get_instance` singleton: the registry is an explicit value passed to every operation.
- `unregister`: an empty stub in the source; the model has no removal, so the registry is append-only.
- `_doing_it_wrong` diagnostics: only their distinct reasons (`RegisterError`) are kept; the messages are not modelled.
- `file_get_contents` failing (returning `false`): `Host.readFile` always yields a string.
- `BlockTemplatesRegistry.Keeps`: for a non-empty `post_type` and a template whose `post_types` is not an array (the registry stores `''` when none were given), PHP 7 warns and drops the entry, PHP 8 raises a `TypeError`; the model drops it.
- `BlockTemplatesRegistry.TemplateArgs`: argument values are typed (strings, a string list); an `$args` key present with a `null` or non-string value is not modelled.
- `TemplatesController.PrepareItem`: response values are abstracted as strings, and `rest_is_field_included`'s nested-field matching as set membership.
- `TemplatesController.PluginKey`: `plugin_basename( sanitize_text_field( … ) )` is one uninterpreted function.
- `PostsController.CheckTemplate`: PHP normalises numeric-string array keys to integers; keys are compared as strings in canonical form.
- Template fields PHP may leave `null` are `Option`s for `name`, `plugin`, `author`, `origin`, `post_types` and `area`; `has_theme_file` is a boolean (`null` reads as false).
- `Templates.Template`: `slug` is always a string, so a pre-built template registered without a slug is not modelled. In PHP its slug is `null`, and `get_by_slug( $type, null )` (reached from `get_item` with `source=plugin` and an id without `//`) would return it; the model finds nothing there.

=== FILE: compat.dfy ===
/**
 The WordPress 6.6 compatibility hooks: the template filter that lets a
 registered `wp_template` take over rendering, and the rewrite of the
 Appearance submenu for classic themes.
 */
module Compat {
  import opened Wrappers
  import opened Templates
  import opened BlockTemplatesRegistry
  import RegistryProperties

  /** The globals `$_wp_current_template_id` and `$_wp_current_template_content`. */
  datatype CurrentTemplate = CurrentTemplate(id: Option<string>, content: Option<string>)

  /** `ABSPATH . WPINC . '/template-canvas.php'` */
  function CanvasPath(abspath: string, wpinc: string): string
  {
    abspath + wpinc + "/template-canvas.php"
  }

  /** `get_by_slug( 'wp_template', slug )` finds a template. */
  predicate Located(reg: Registry, slug: string)
  {
    GetBySlug(reg, WpTemplate, slug).Some?
  }

  /**
   Index of the first slug at or after `from`, in order, that `located`
   accepts; the filter passes `get_by_slug( 'wp_template', … )` as `located`.
   */
  function FirstRegistered(located: string -> bool, slugs: seq<string>, from: nat): (r: Option<nat>)
    requires from <= |slugs|
    ensures r.Some? ==> from <= r.value < |slugs| && located(slugs[r.value])
    ensures r.Some? ==> forall j :: from <= j < r.value ==> !located(slugs[j])
    ensures r.None? <==> forall j :: from <= j < |slugs| ==> !located(slugs[j])
    decreases |slugs| - from
  {
    if from == |slugs| then None
    else if located(slugs[from]) then Some(from)
    else FirstRegistered(located, slugs, from + 1)
  }

  /**
   The closure added to each `*_template` filter: the first slug of
   `templates` that names a registered `wp_template` sets the current-template
   globals from it and selects the canvas; otherwise `template` and the
   globals pass through.
   */
  function TemplateFilter(reg: Registry, template: string, templates: seq<string>,
                          abspath: string, wpinc: string, current: CurrentTemplate)
    : (r: (string, CurrentTemplate))
    ensures (forall j :: 0 <= j < |templates| ==> !Located(reg, templates[j])) ==> r == (template, current)
    ensures (exists j :: 0 <= j < |templates| && Located(reg, templates[j])) ==>
      && r.0 == CanvasPath(abspath, wpinc)
      && exists k :: 0 <= k < |templates|
           && (forall j :: 0 <= j < k ==> !Located(reg, templates[j]))
           && Located(reg, templates[k])
           && var located := GetBySlug(reg, WpTemplate, templates[k]).value;
              && located.slug == templates[k]
              && r.1 == CurrentTemplate(Some(located.id), Some(located.content))
  {
    match FirstRegistered(s => Located(reg, s), templates, 0)
    case None => (template, current)
    case Some(k) =>
      var located := GetBySlug(reg, WpTemplate, templates[k]).value;
      (CanvasPath(abspath, wpinc), CurrentTemplate(Some(located.id), Some(located.content)))
  }

  /** Once a prefix has an accepted slug, what follows it does not move the first hit. */
  lemma FirstRegisteredPrefix(located: string -> bool, earlier: seq<string>, later: seq<string>)
    requires exists j :: 0 <= j < |earlier| && located(earlier[j])
    ensures FirstRegistered(located, earlier + later, 0) == FirstRegistered(located, earlier, 0)
  {
    var all := earlier + later;
    assert forall j :: 0 <= j < |earlier| ==> all[j] == earlier[j];
    var k := FirstRegistered(located, earlier, 0);
    var k' := FirstRegistered(located, all, 0);
    assert located(all[k.value]);
    assert k'.Some? && k'.value <= k.value;
  }

  /** Slugs after the first registered one are never consulted. */
  lemma {:induction false} LaterSlugsNotConsulted(reg: Registry, template: string, earlier: seq<string>,
                                                  later: seq<string>, abspath: string, wpinc: string,
                                                  current: CurrentTemplate)
    requires exists j :: 0 <= j < |earlier| && Located(reg, earlier[j])
    ensures TemplateFilter(reg, template, earlier + later, abspath, wpinc, current)
            == TemplateFilter(reg, template, earlier, abspath, wpinc, current)
  {
    var located := s => Located(reg, s);
    var j :| 0 <= j < |earlier| && Located(reg, earlier[j]);
    assert located(earlier[j]);
    FirstRegisteredPrefix(located, earlier, later);
    var k := FirstRegistered(located, earlier, 0).value;
    assert (earlier + later)[k] == earlier[k];
  }

  /**
   Registering a `wp_template` whose slug no earlier template has makes the
   filter select the canvas for that slug, with the new template's id and
   content as the current template.
   */
  lemma RegisteredTemplateTakesOver(reg: Registry, name: string, args: TemplateArgs, host: Host,
                                    template: string, abspath: string, wpinc: string, current: CurrentTemplate)
    requires Register(reg, NameString(name), WpTemplate, args, host).0.Success?
    requires args.slug.Some? && GetBySlug(reg, WpTemplate, args.slug.value).None?
    ensures var out := Register(reg, NameString(name), WpTemplate, args, host);
      TemplateFilter(out.1, template, [args.slug.value], abspath, wpinc, current)
      == (CanvasPath(abspath, wpinc),
          CurrentTemplate(Some(host.stylesheet + "//" + args.slug.value), Some(out.0.value.content)))
  {
    var out := Register(reg, NameString(name), WpTemplate, args, host);
    assert out.0.value.slug == args.slug.value;
    RegistryProperties.GetBySlugFreshSlug(reg, NameString(name), WpTemplate, args, host);
  }

  /** One submenu item: title, capability and link (`$item[2]`). */
  datatype MenuItem = MenuItem(title: string, capability: string, link: string)

  /** One `$key => $item` pair of a submenu. */
  datatype MenuEntry = MenuEntry(key: int, item: MenuItem)

  const ThemesMenu: string := "themes.php"
  const LegacyPatternsLink: string := "edit.php?post_type=wp_block"
  const PatternsLink: string := "site-editor.php?path=/patterns"
  const TemplatePartsLink: string := "site-editor.php?path=/wp_template_part/all"

  /** Number of entries whose link is `link`. */
  function CountLink(entries: seq<MenuEntry>, link: string): (n: nat)
    ensures n <= |entries|
    decreases |entries|
  {
    if |entries| == 0 then 0
    else (if entries[0].item.link == link then 1 else 0) + CountLink(entries[1..], link)
  }

  /** Counting is additive: the count of a concatenation is the sum of the counts. */
  lemma {:induction false} CountLinkAppend(a: seq<MenuEntry>, b: seq<MenuEntry>, link: string)
    ensures CountLink(a + b, link) == CountLink(a, link) + CountLink(b, link)
    ensures CountLink([], link) == 0
    decreases |a|
  {
    if |a| == 0 {
      assert a + b == b;
    } else {
      assert (a + b)[1..] == a[1..] + b;
      CountLinkAppend(a[1..], b, link);
    }
  }

  /** One entry counts once exactly when it has the link. */
  lemma CountLinkSingle(e: MenuEntry, link: string)
    ensures CountLink([e], link) == if e.item.link == link then 1 else 0
  {
    assert [e][1..] == [];
  }

  /** The change the loop makes to a kept entry. */
  function Repoint(e: MenuEntry): (r: MenuEntry)
    ensures r.key == e.key && r.item.title == e.item.title && r.item.capability == e.item.capability
    ensures r.item.link != LegacyPatternsLink
    ensures r.item.link == TemplatePartsLink <==> e.item.link == TemplatePartsLink
    ensures e.item.link != LegacyPatternsLink ==> r == e
  {
    if e.item.link == LegacyPatternsLink then e.(item := e.item.(link := PatternsLink)) else e
  }

  /** Entry `i` of `entries` survives the loop and becomes `e`. */
  ghost predicate KeptAs(entries: seq<MenuEntry>, i: int, e: MenuEntry)
  {
    0 <= i < |entries| && entries[i].item.link != TemplatePartsLink && e == Repoint(entries[i])
  }

  /** Some entry of `entries` survives the loop and becomes `e`. */
  ghost predicate Survives(entries: seq<MenuEntry>, e: MenuEntry)
  {
    exists i :: KeptAs(entries, i, e)
  }

  /** The survivors of a non-empty list: its head, or a survivor of its tail. */
  lemma SurvivesShift(entries: seq<MenuEntry>)
    requires |entries| > 0
    ensures forall e :: Survives(entries, e) <==> KeptAs(entries, 0, e) || Survives(entries[1..], e)
  {
    var tail := entries[1..];
    forall e | Survives(entries, e)
      ensures KeptAs(entries, 0, e) || Survives(tail, e)
    {
      var i :| KeptAs(entries, i, e);
      if i > 0 {
        assert tail[i - 1] == entries[i];
        assert KeptAs(tail, i - 1, e);
      }
    }
    forall e | Survives(tail, e)
      ensures Survives(entries, e)
    {
      var i :| KeptAs(tail, i, e);
      assert tail[i] == entries[i + 1];
      assert KeptAs(entries, i + 1, e);
    }
  }

  /**
   The loop over `$submenu['themes.php']`: the patterns entry is re-pointed
   at the site editor and the template-parts entry is removed, keeping keys
   and order.
   */
  function RewriteEntries(entries: seq<MenuEntry>): (r: seq<MenuEntry>)
    ensures |r| == |entries| - CountLink(entries, TemplatePartsLink)
    decreases |entries|
  {
    if |entries| == 0 then []
    else
      var rest := RewriteEntries(entries[1..]);
      if entries[0].item.link == TemplatePartsLink then rest
      else [Repoint(entries[0])] + rest
  }

  /** No template-parts or legacy patterns link is left after the rewrite. */
  lemma {:induction false} RewriteEntriesLinks(entries: seq<MenuEntry>)
    ensures forall e :: e in RewriteEntries(entries) ==> e.item.link != TemplatePartsLink && e.item.link != LegacyPatternsLink
    decreases |entries|
  {
    if |entries| > 0 {
      RewriteEntriesLinks(entries[1..]);
    }
  }

  /** The rewritten list holds exactly the survivors: kept entries, re-pointed where needed. */
  lemma {:induction false} RewriteEntriesSurvivors(entries: seq<MenuEntry>)
    ensures forall e :: e in RewriteEntries(entries) <==> Survives(entries, e)
    decreases |entries|
  {
    if |entries| > 0 {
      RewriteEntriesSurvivors(entries[1..]);
      SurvivesShift(entries);
      var rest := RewriteEntries(entries[1..]);
      if entries[0].item.link == TemplatePartsLink {
        assert forall e :: !KeptAs(entries, 0, e);
      } else {
        var r := [Repoint(entries[0])] + rest;
        assert forall e :: e in r <==> e == Repoint(entries[0]) || e in rest;
      }
    }
  }

  /**
   `gutenberg_change_patterns_link_and_remove_template_parts_submenu_item`:
   for a classic theme with a non-empty Appearance submenu, rewrite that
   submenu; leave everything else alone.
   */
  function ChangePatternsSubmenu(isBlockTheme: bool, submenu: map<string, seq<MenuEntry>>)
    : (r: map<string, seq<MenuEntry>>)
    ensures isBlockTheme || ThemesMenu !in submenu || |submenu[ThemesMenu]| == 0 ==> r == submenu
    ensures r.Keys == submenu.Keys
    ensures forall k :: k in submenu && k != ThemesMenu ==> r[k] == submenu[k]
    ensures !isBlockTheme && ThemesMenu in submenu ==>
      && |r[ThemesMenu]| == |submenu[ThemesMenu]| - CountLink(submenu[ThemesMenu], TemplatePartsLink)
      && (forall e :: e in r[ThemesMenu] ==> e.item.link != TemplatePartsLink && e.item.link != LegacyPatternsLink)
      && (forall e ::
            (e in submenu[ThemesMenu] && e.item.link != TemplatePartsLink && e.item.link != LegacyPatternsLink)
            ==> e in r[ThemesMenu])
    ensures !isBlockTheme && ThemesMenu in submenu ==>
      forall e :: e in submenu[ThemesMenu] && e.item.link == LegacyPatternsLink
        ==> e.(item := e.item.(link := PatternsLink)) in r[ThemesMenu]
    ensures !isBlockTheme && ThemesMenu in submenu ==> r[ThemesMenu] == RewriteEntries(submenu[ThemesMenu])
  {
    if isBlockTheme || ThemesMenu !in submenu || |submenu[ThemesMenu]| == 0 then submenu
    else
      var entries := submenu[ThemesMenu];
      var rewritten := RewriteEntries(entries);
      RewriteEntriesSurvivors(entries);
      RewriteEntriesLinks(entries);
      assert forall e :: e in entries && e.item.link != TemplatePartsLink && e.item.link != LegacyPatternsLink
                         ==> e in rewritten by {
        forall e | e in entries && e.item.link != TemplatePartsLink && e.item.link != LegacyPatternsLink
          ensures e in rewritten
        {
          var i :| 0 <= i < |entries| && entries[i] == e;
          assert KeptAs(entries, i, e);
        }
      }
      assert forall e :: e in entries && e.item.link == LegacyPatternsLink
                         ==> e.(item := e.item.(link := PatternsLink)) in rewritten by {
        forall e | e in entries && e.item.link == LegacyPatternsLink
          ensures e.(item := e.item.(link := PatternsLink)) in rewritten
        {
          var i :| 0 <= i < |entries| && entries[i] == e;
          assert KeptAs(entries, i, e.(item := e.item.(link := PatternsLink)));
        }
      }
      submenu[ThemesMenu := rewritten]
  }

  /** The rewrite keeps the order of the surviving entries: it works entry by entry, left to right. */
  lemma {:induction false} RewriteEntriesAppend(a: seq<MenuEntry>, b: seq<MenuEntry>)
    ensures RewriteEntries(a + b) == RewriteEntries(a) + RewriteEntries(b)
    decreases |a|
  {
    if |a| == 0 {
      assert a + b == b;
    } else {
      var ab := a + b;
      assert ab[0] == a[0] && ab[1..] == a[1..] + b;
      RewriteEntriesAppend(a[1..], b);
      var tail := RewriteEntries(a[1..]);
      if a[0].item.link != TemplatePartsLink {
        var head := [Repoint(a[0])];
        assert RewriteEntries(ab) == head + (tail + RewriteEntries(b));
        assert RewriteEntries(a) == head + tail;
        assert head + (tail + RewriteEntries(b)) == (head + tail) + RewriteEntries(b);
      }
    }
  }

  /** One entry: the template-parts entry is dropped, any other is kept, re-pointed if it is the patterns entry. */
  lemma RewriteSingleEntry(e: MenuEntry)
    ensures e.item.link == TemplatePartsLink ==> RewriteEntries([e]) == []
    ensures e.item.link == LegacyPatternsLink ==> RewriteEntries([e]) == [e.(item := e.item.(link := PatternsLink))]
    ensures e.item.link != TemplatePartsLink && e.item.link != LegacyPatternsLink ==> RewriteEntries([e]) == [e]
  {
    assert [e][1..] == [];
  }

  /** Rewriting an already rewritten submenu changes nothing. */
  lemma {:induction false} RewriteIdempotent(entries: seq<MenuEntry>)
    ensures RewriteEntries(RewriteEntries(entries)) == RewriteEntries(entries)
    decreases |entries|
  {
    if |entries| > 0 {
      RewriteIdempotent(entries[1..]);
      var rest := RewriteEntries(entries[1..]);
      if entries[0].item.link != TemplatePartsLink {
        var head := Repoint(entries[0]);
        var once := [head] + rest;
        assert once[0] == head && once[1..] == rest;
        assert head.item.link != TemplatePartsLink && Repoint(head) == head;
      }
    }
  }

  /** Running the submenu hook twice has the effect of running it once. */
  lemma SubmenuChangeIdempotent(isBlockTheme: bool, submenu: map<string, seq<MenuEntry>>)
    ensures ChangePatternsSubmenu(isBlockTheme, ChangePatternsSubmenu(isBlockTheme, submenu))
            == ChangePatternsSubmenu(isBlockTheme, submenu)
  {
    if !isBlockTheme && ThemesMenu in submenu && |submenu[ThemesMenu]| > 0 {
      RewriteIdempotent(submenu[ThemesMenu]);
    }
  }
}

=== FILE: controller_properties.dfy ===
/** Properties of the templates controller rules, including their link to the registry. */
module TemplatesControllerProperties {
  import opened Wrappers
  import opened Templates
  import NamePattern
  import IdParts
  import opened BlockTemplatesRegistry
  import opened TemplatesController

  /** Four sample templates classify as theme, plugin, site, and user (a custom template with an author). */
  lemma ClassificationExamples(t: Template)
    requires IsTemplateType(t.templateType)
    ensures ClassifyOriginalSource(t.(hasThemeFile := true, origin := Some(""), source := "theme")) == ThemeSource
    ensures ClassifyOriginalSource(t.(origin := Some("plugin"))) == PluginSource
    ensures ClassifyOriginalSource(t.(hasThemeFile := false, origin := None, source := "custom", author := None))
            == SiteSource
    ensures ClassifyOriginalSource(t.(hasThemeFile := false, origin := None, source := "custom", author := Some(7)))
            == UserSource
  {
  }

  /**
   Why the clone is patched: a plugin template with a theme file would be
   reported as a theme template if the serializer's input were classified.
   */
  lemma CloneWouldReportTheme(item: Template)
    requires IsTemplateType(item.templateType) && item.hasThemeFile && item.origin == Some("plugin")
    ensures ClassifyOriginalSource(SerializerInput(item)) == ThemeSource
    ensures ClassifyOriginalSource(item) == PluginSource
  {
  }

  /**
   A template the registry built is a plugin template; its author text is the
   name of the plugin file "$plugin/$plugin.php", where `plugin` is '' when
   no plugin was given, and the stylesheet when that entry has no name.
   */
  lemma RegisteredTemplateAuthorText(templateType: string, args: TemplateArgs, host: Host, c: Collaborators)
    requires IsTemplateType(templateType)
    ensures var t := BuildTemplate(templateType, args, host);
      var p := if args.plugin.Some? then args.plugin.value else "";
      var key := c.pluginFile(p + "/" + p + ".php");
      && ClassifyOriginalSource(t) == PluginSource
      && PluginKey(t, c) == key
      && AuthorText(t, c) == (if key in c.plugins && !Wp.EmptyString(c.plugins[key]) then c.plugins[key]
                              else host.stylesheet)
  {
  }

  /**
   A registry-built template's response reports origin "plugin" and original
   source "plugin", although the parent serializer saw origin "theme".
   */
  lemma RegisteredTemplateResponse(templateType: string, args: TemplateArgs, host: Host,
                                   fields: set<string>, c: Collaborators)
    requires IsTemplateType(templateType)
    requires "origin" in fields && "original_source" in fields
    ensures var t := BuildTemplate(templateType, args, host);
      var data := PrepareItem(t, fields, c);
      && SerializerInput(t).origin == Some("theme")
      && data["origin"] == "plugin"
      && data["original_source"] == "plugin"
  {
  }

  /** A plugin id resolves by its slug piece alone, whatever its namespace. */
  lemma PluginItemIgnoresNamespace(reg: Registry, postType: string, ns1: string, ns2: string, slug: string,
                                   c: Collaborators)
    requires forall k :: 0 <= k < |ns1| ==> ns1[k] != '/'
    requires forall k :: 0 <= k < |ns2| ==> ns2[k] != '/'
    requires !IdParts.ContainsSeparator(slug)
    ensures LookupItem(reg, postType, ItemRequest(ns1 + "//" + slug, Some("plugin")), c)
            == LookupItem(reg, postType, ItemRequest(ns2 + "//" + slug, Some("plugin")), c)
    ensures LookupItem(reg, postType, ItemRequest(ns1 + "//" + slug, Some("plugin")), c)
            == GetBySlug(reg, postType, slug)
  {
    IdParts.PluginSlugIgnoresNamespace(ns1, ns2, slug);
  }

  /**
   The id of a registered name resolves through the registry's slug lookup
   for the text after its "//": the slug for `namespace//slug`, and the slug
   with its newline for a name accepted through the trailing-newline quirk.
   */
  lemma RegisteredNameIdResolvesBySlug(reg: Registry, postType: string, name: string, c: Collaborators)
    requires NamePattern.Matches(name)
    ensures exists ns, slug ::
      && NamePattern.IsSegment(ns) && NamePattern.IsSegment(slug)
      && (name == ns + "//" + slug || name == ns + "//" + slug + "\n")
      && LookupItem(reg, postType, ItemRequest(name, Some("plugin")), c) == GetBySlug(reg, postType, name[|ns| + 2..])
    ensures NamePattern.MatchesExactly(name) ==> exists ns, slug ::
      && name == ns + "//" + slug
      && NamePattern.IsSegment(ns) && NamePattern.IsSegment(slug)
      && LookupItem(reg, postType, ItemRequest(name, Some("plugin")), c) == GetBySlug(reg, postType, slug)
  {
    var ns, slug, rest := NamePattern.MatchedNameShape(name);
    SegmentsResolve(reg, postType, name, ns, slug, rest, c);
    var found := LookupItem(reg, postType, ItemRequest(name, Some("plugin")), c);
    assert NamePattern.IsSegment(ns) && NamePattern.IsSegment(slug)
      && (name == ns + "//" + slug || name == ns + "//" + slug + "\n")
      && found == GetBySlug(reg, postType, name[|ns| + 2..]);
    if NamePattern.MatchesExactly(name) {
      assert name == ns + "//" + slug && NamePattern.IsSegment(ns) && NamePattern.IsSegment(slug)
        && found == GetBySlug(reg, postType, slug);
    }
  }

  /** `ns//rest` resolves by `rest` when `ns` is a segment and `rest` a slug segment, possibly with a newline. */
  lemma SegmentsResolve(reg: Registry, postType: string, name: string, ns: string, slug: string, rest: string,
                        c: Collaborators)
    requires NamePattern.IsSegment(ns) && NamePattern.IsSegment(slug)
    requires rest == slug || rest == slug + "\n"
    requires name == ns + "//" + rest
    ensures name[|ns| + 2..] == rest
    ensures LookupItem(reg, postType, ItemRequest(name, Some("plugin")), c) == GetBySlug(reg, postType, rest)
  {
    assert forall k :: 0 <= k < |rest| ==> rest[k] != '/' by {
      assert forall k :: 0 <= k < |slug| ==> NamePattern.IsSegmentChar(slug[k]);
    }
    assert forall k :: 0 <= k < |ns| ==> ns[k] != '/' by {
      assert forall k :: 0 <= k < |ns| ==> NamePattern.IsSegmentChar(ns[k]);
    }
    PluginItemIgnoresNamespace(reg, postType, ns, ns, rest, c);
    assert name[|ns| + 2..] == rest;
  }

  /** Any lookup miss, on any branch, is the 404 `rest_template_not_found` error. */
  lemma MissIsNotFound(reg: Registry, postType: string, request: ItemRequest, fields: set<string>, c: Collaborators)
    requires LookupItem(reg, postType, request, c).None?
    ensures GetItem(reg, postType, request, fields, c)
            == Failure(Wp.WpError("rest_template_not_found", "No templates exist with that id.", Some(404)))
  {
  }
}

=== FILE: id_parts.dfy ===
/**
 PHP's `explode('//', id)` as used to take a plugin template id apart, and
 its inverse `implode('//', pieces)`.
 */
module IdParts {
  import opened Wrappers
  import opened Wp

  const Separator: string := "//"

  /** A separator starts at index `i` of `s`. */
  predicate SeparatorAt(s: string, i: int)
  {
    0 <= i && i + 1 < |s| && s[i] == '/' && s[i + 1] == '/'
  }

  predicate ContainsSeparator(s: string)
  {
    exists i :: 0 <= i < |s| && SeparatorAt(s, i)
  }

  /** Index of the leftmost separator at or after `from`. */
  function FirstSeparatorFrom(s: string, from: nat): (r: Option<nat>)
    requires from <= |s|
    ensures r.Some? ==> from <= r.value && SeparatorAt(s, r.value)
    ensures r.Some? ==> forall j :: from <= j < r.value ==> !SeparatorAt(s, j)
    ensures r.None? ==> forall j :: from <= j < |s| ==> !SeparatorAt(s, j)
    decreases |s| - from
  {
    if from + 1 >= |s| then None
    else if SeparatorAt(s, from) then Some(from)
    else FirstSeparatorFrom(s, from + 1)
  }

  /** `explode('//', s)`: split at every separator, scanning left to right. */
  function Explode(s: string): (pieces: seq<string>)
    ensures |pieces| >= 1
    decreases |s|
  {
    match FirstSeparatorFrom(s, 0)
    case None => [s]
    case Some(i) => [s[..i]] + Explode(s[i + 2..])
  }

  /**
   The slug `list( $namespace, $slug ) = explode( '//', $id )` binds: the
   second piece, or `None` (PHP's `null`) when the id has no separator.
   */
  function PluginSlug(id: string): (r: Option<string>)
    ensures r.None? <==> !ContainsSeparator(id)
  {
    var pieces := Explode(id);
    if |pieces| >= 2 then Some(pieces[1]) else None
  }

  /** Round trip: joining the pieces with "//" gives back the id. */
  lemma {:induction false} ImplodeExplode(s: string)
    ensures Implode(Separator, Explode(s)) == s
    decreases |s|
  {
    match FirstSeparatorFrom(s, 0)
    case None =>
    case Some(i) =>
      var rest := s[i + 2..];
      ImplodeExplode(rest);
      var tail := Explode(rest);
      assert Explode(s) == [s[..i]] + tail;
      assert Implode(Separator, Explode(s)) == s[..i] + Separator + Implode(Separator, tail);
      assert s == s[..i] + Separator + rest;
  }

  /** No piece contains the separator. */
  lemma {:induction false} PiecesHaveNoSeparator(s: string)
    ensures forall k :: 0 <= k < |Explode(s)| ==> !ContainsSeparator(Explode(s)[k])
    decreases |s|
  {
    match FirstSeparatorFrom(s, 0)
    case None =>
      assert Explode(s) == [s];
    case Some(i) =>
      var rest := s[i + 2..];
      PiecesHaveNoSeparator(rest);
      var head := s[..i];
      assert Explode(s) == [head] + Explode(rest);
      assert !ContainsSeparator(head) by {
        forall j | SeparatorAt(head, j)
          ensures false
        {
          assert SeparatorAt(s, j);
        }
      }
      forall k | 0 <= k < |Explode(s)|
        ensures !ContainsSeparator(Explode(s)[k])
      {
        if k > 0 {
          assert Explode(s)[k] == Explode(rest)[k - 1];
        }
      }
  }

  /** An id whose namespace has no slash splits into that namespace and the pieces of the rest. */
  lemma ExplodeNamespaced(ns: string, rest: string)
    requires forall k :: 0 <= k < |ns| ==> ns[k] != '/'
    ensures Explode(ns + Separator + rest) == [ns] + Explode(rest)
  {
    var s := ns + Separator + rest;
    var f := FirstSeparatorFrom(s, 0);
    assert SeparatorAt(s, |ns|);
    assert f.Some? && f.value <= |ns|;
    assert s[..|ns|] == ns;
    assert s[|ns| + 2..] == rest;
  }

  /**
   The slug a plugin id resolves to does not depend on its namespace, and
   for `ns//slug` with a slug free of "//" it is exactly `slug`.
   */
  lemma PluginSlugIgnoresNamespace(ns1: string, ns2: string, rest: string)
    requires forall k :: 0 <= k < |ns1| ==> ns1[k] != '/'
    requires forall k :: 0 <= k < |ns2| ==> ns2[k] != '/'
    ensures PluginSlug(ns1 + Separator + rest) == PluginSlug(ns2 + Separator + rest)
    ensures !ContainsSeparator(rest) ==> PluginSlug(ns1 + Separator + rest) == Some(rest)
  {
    ExplodeNamespaced(ns1, rest);
    ExplodeNamespaced(ns2, rest);
    if !ContainsSeparator(rest) {
      assert FirstSeparatorFrom(rest, 0).None?;
    }
  }

  /** Example: "a//b//c" has three pieces and resolves to slug "b". */
  lemma ThreePieceId()
    ensures Explode("a//b//c") == ["a", "b", "c"]
    ensures PluginSlug("a//b//c") == Some("b")
  {
    assert SeparatorAt("a//b//c", 1);
    assert FirstSeparatorFrom("a//b//c", 0) == Some(1);
    assert "a//b//c"[3..] == "b//c";
    assert SeparatorAt("b//c", 1);
    assert FirstSeparatorFrom("b//c", 0) == Some(1);
    assert "b//c"[3..] == "c";
    assert FirstSeparatorFrom("c", 0) == None;
    assert Explode("c") == ["c"];
    assert "b//c"[..1] == "b";
    assert Explode("b//c") == ["b", "c"];
    assert "a//b//c"[..1] == "a";
  }
}

=== FILE: name_pattern.dfy ===
/**
 The registry's template-name pattern `/^[a-z0-9-]+\/\/[a-z0-9-]+$/`,
 modelled as a finite automaton and related to the declarative shape
 "namespace // slug".
 */
module NamePattern {

  /** A character of the class `[a-z0-9-]`. */
  predicate IsSegmentChar(c: char)
  {
    ('a' <= c <= 'z') || ('0' <= c <= '9') || c == '-'
  }

  predicate AllSegmentChars(s: string)
  {
    forall i :: 0 <= i < |s| ==> IsSegmentChar(s[i])
  }

  /** `[a-z0-9-]+` */
  predicate IsSegment(s: string)
  {
    |s| > 0 && AllSegmentChars(s)
  }

  /** States of an automaton recognising `[a-z0-9-]+//[a-z0-9-]+`. */
  datatype State = Start | Namespace | OneSlash | TwoSlashes | Slug | Dead

  function Step(st: State, c: char): State
  {
    match st
    case Start => if IsSegmentChar(c) then Namespace else Dead
    case Namespace =>
      if IsSegmentChar(c) then Namespace else if c == '/' then OneSlash else Dead
    case OneSlash => if c == '/' then TwoSlashes else Dead
    case TwoSlashes => if IsSegmentChar(c) then Slug else Dead
    case Slug => if IsSegmentChar(c) then Slug else Dead
    case Dead => Dead
  }

  function Run(st: State, s: string): State
    decreases |s|
  {
    if |s| == 0 then st else Run(Step(st, s[0]), s[1..])
  }

  /** The pattern anchored at both ends, with `$` meaning "end of string". */
  predicate MatchesExactly(name: string)
  {
    Run(Start, name) == Slug
  }

  /**
   What `preg_match` reports: without the `D` modifier, PCRE's `$` also
   matches just before a final "\n", so one trailing newline is accepted.
   */
  predicate Matches(name: string)
  {
    || MatchesExactly(name)
    || (|name| > 0 && name[|name| - 1] == '\n' && MatchesExactly(name[..|name| - 1]))
  }

  /** `name` is a namespace of length `i`, then "//", then a slug. */
  ghost predicate SplitAt(name: string, i: int)
  {
    && 0 < i && i + 2 < |name|
    && IsSegment(name[..i])
    && name[i] == '/' && name[i + 1] == '/'
    && IsSegment(name[i + 2..])
  }

  ghost predicate Namespaced(name: string)
  {
    exists i :: SplitAt(name, i)
  }

  /** A possibly empty namespace of length `i` followed by "//" and a slug. */
  ghost predicate TailAt(s: string, i: int)
  {
    && 0 <= i && i + 2 < |s|
    && AllSegmentChars(s[..i])
    && s[i] == '/' && s[i + 1] == '/'
    && IsSegment(s[i + 2..])
  }

  lemma {:induction false} DeadStays(s: string)
    ensures Run(Dead, s) == Dead
    decreases |s|
  {
    if |s| > 0 {
      DeadStays(s[1..]);
    }
  }

  lemma {:induction false} SlugRun(s: string)
    ensures Run(Slug, s) == Slug <==> AllSegmentChars(s)
    decreases |s|
  {
    if |s| > 0 {
      assert forall k :: 0 <= k < |s| - 1 ==> s[1..][k] == s[k + 1];
      if IsSegmentChar(s[0]) {
        SlugRun(s[1..]);
      } else {
        DeadStays(s[1..]);
      }
    }
  }

  lemma TwoSlashesRun(s: string)
    ensures Run(TwoSlashes, s) == Slug <==> IsSegment(s)
  {
    if |s| > 0 {
      assert forall k :: 0 <= k < |s| - 1 ==> s[1..][k] == s[k + 1];
      if IsSegmentChar(s[0]) {
        SlugRun(s[1..]);
      } else {
        DeadStays(s[1..]);
      }
    }
  }

  lemma OneSlashRun(s: string)
    ensures Run(OneSlash, s) == Slug <==> |s| > 0 && s[0] == '/' && IsSegment(s[1..])
  {
    if |s| > 0 {
      if s[0] == '/' {
        TwoSlashesRun(s[1..]);
      } else {
        DeadStays(s[1..]);
      }
    }
  }

  lemma {:induction false} NamespaceRun(s: string)
    ensures Run(Namespace, s) == Slug <==> exists i :: TailAt(s, i)
    decreases |s|
  {
    if |s| == 0 {
      return;
    }
    var t := s[1..];
    if IsSegmentChar(s[0]) {
      NamespaceRun(t);
      if j :| TailAt(t, j) {
        assert s[..j + 1] == [s[0]] + t[..j];
        assert s[j + 3..] == t[j + 2..];
        assert TailAt(s, j + 1);
      }
      if i :| TailAt(s, i) {
        assert i != 0;
        assert t[..i - 1] == s[1..i];
        assert t[i + 1..] == s[i + 2..];
        assert TailAt(t, i - 1);
      }
    } else if s[0] == '/' {
      OneSlashRun(t);
      if i :| TailAt(s, i) {
        assert i == 0;
        assert t[1..] == s[2..];
      }
      if |t| > 0 && t[0] == '/' && IsSegment(t[1..]) {
        assert t[1..] == s[2..];
        assert TailAt(s, 0);
      }
    } else {
      DeadStays(t);
    }
  }

  /** The automaton accepts exactly the names of the shape namespace//slug. */
  lemma {:induction false} MatchesExactlyIffNamespaced(name: string)
    ensures MatchesExactly(name) <==> Namespaced(name)
  {
    if |name| == 0 {
      return;
    }
    var t := name[1..];
    if IsSegmentChar(name[0]) {
      NamespaceRun(t);
      if j :| TailAt(t, j) {
        assert name[..j + 1] == [name[0]] + t[..j];
        assert name[j + 3..] == t[j + 2..];
        assert SplitAt(name, j + 1);
      }
      if i :| SplitAt(name, i) {
        assert t[..i - 1] == name[1..i];
        assert t[i + 1..] == name[i + 2..];
        assert TailAt(t, i - 1);
      }
    } else {
      DeadStays(t);
    }
  }

  /**
   Every exactly-matching name is two non-empty `[a-z0-9-]` segments joined
   by "//", and those two characters are its only slashes.
   */
  lemma AcceptedNameShape(name: string) returns (ns: string, slug: string)
    requires MatchesExactly(name)
    ensures IsSegment(ns) && IsSegment(slug)
    ensures name == ns + "//" + slug
    ensures forall k :: 0 <= k < |name| && name[k] == '/' ==> k == |ns| || k == |ns| + 1
  {
    MatchesExactlyIffNamespaced(name);
    var i :| SplitAt(name, i);
    ns, slug := name[..i], name[i + 2..];
    assert name == ns + "//" + slug;
  }

  /**
   Every accepted name is `ns//rest` with `rest` the slug segment, or the slug
   followed by the newline the trailing `$` lets through.
   */
  lemma MatchedNameShape(name: string) returns (ns: string, slug: string, rest: string)
    requires Matches(name)
    ensures IsSegment(ns) && IsSegment(slug)
    ensures rest == slug || rest == slug + "\n"
    ensures name == ns + "//" + rest
    ensures MatchesExactly(name) ==> rest == slug
  {
    if MatchesExactly(name) {
      ns, slug := AcceptedNameShape(name);
      rest := slug;
    } else {
      ns, slug := AcceptedNameShape(name[..|name| - 1]);
      rest := slug + "\n";
      assert name == name[..|name| - 1] + "\n";
    }
  }

  /** Conversely, every namespace//slug name of segments matches exactly. */
  lemma NamespacedNameMatches(ns: string, slug: string)
    requires IsSegment(ns) && IsSegment(slug)
    ensures MatchesExactly(ns + "//" + slug)
  {
    var name := ns + "//" + slug;
    assert name[..|ns|] == ns;
    assert name[|ns| + 2..] == slug;
    assert SplitAt(name, |ns|);
    MatchesExactlyIffNamespaced(name);
  }

  /**
   The trailing-newline quirk: a well-formed name followed by "\n" passes
   the check although it does not match the pattern exactly.
   */
  lemma TrailingNewlineAccepted(ns: string, slug: string)
    requires IsSegment(ns) && IsSegment(slug)
    ensures Matches(ns + "//" + slug + "\n")
    ensures !MatchesExactly(ns + "//" + slug + "\n")
  {
    var name := ns + "//" + slug;
    var quirky := name + "\n";
    NamespacedNameMatches(ns, slug);
    assert quirky[..|quirky| - 1] == name;
    MatchesExactlyIffNamespaced(quirky);
  }

  /** A name the pattern accepts never contains an uppercase letter. */
  lemma AcceptedNameIsLowercase(name: string)
    requires Matches(name)
    ensures forall k :: 0 <= k < |name| ==> !('A' <= name[k] <= 'Z')
  {
    var core := if MatchesExactly(name) then name else name[..|name| - 1];
    MatchesExactlyIffNamespaced(core);
    var i :| SplitAt(core, i);
    forall k | 0 <= k < |name|
      ensures !('A' <= name[k] <= 'Z')
    {
      if k < |core| {
        if k < i {
          assert core[..i][k] == core[k];
        } else if k > i + 1 {
          assert core[i + 2..][k - i - 2] == core[k];
        }
        assert name[k] == core[k];
      }
    }
  }
}

=== FILE: posts_controller.dfy ===
/**
 `check_template` of the 6.6 posts REST controller: whether the template a
 post is being saved with is acceptable, given the allowed block templates
 for the post type.
 */
module PostsController {
  import opened Wrappers
  import opened Wp

  /** One `key => template` pair of the allowed-templates array; only the slug is read. */
  datatype AllowedTemplate = AllowedTemplate(key: string, slug: string)

  /** The request parameters `check_template` reads: `id` and `template`. */
  datatype CheckRequest = CheckRequest(id: Option<int>, template: Option<string>)

  /** `true` or the `WP_Error` returned. */
  datatype Verdict = Accepted | Rejected(error: WpError)

  /** The `$current_template` compared against: the post's template slug when the request has an id. */
  function CurrentTemplate(request: CheckRequest, pageTemplateSlug: int -> Option<string>): (r: Option<string>)
    ensures request.id.None? || request.id == Some(0) ==> r == Some("")
    ensures request.id.Some? && request.id.value != 0 ==> r == pageTemplateSlug(request.id.value)
  {
    if request.id.Some? && request.id.value != 0 then pageTemplateSlug(request.id.value) else Some("")
  }

  /** Whether `request['template']` equals the slug of some allowed template. */
  function AnySlugMatches(allowed: seq<AllowedTemplate>, requested: Option<string>): (r: bool)
    ensures r <==> requested.Some? && exists i :: 0 <= i < |allowed| && allowed[i].slug == requested.value
    decreases |allowed|
  {
    if |allowed| == 0 then false
    else if requested == Some(allowed[0].slug) then true
    else
      var r := AnySlugMatches(allowed[1..], requested);
      assert r ==> exists i :: 0 <= i < |allowed| && allowed[i].slug == requested.value by {
        if r {
          var i :| 0 <= i < |allowed| - 1 && allowed[1..][i].slug == requested.value;
          assert allowed[i + 1].slug == requested.value;
        }
      }
      r
  }

  /** The keys of the allowed-templates array, in order. */
  function Keys(allowed: seq<AllowedTemplate>): (keys: seq<string>)
    ensures |keys| == |allowed|
    ensures forall i :: 0 <= i < |allowed| ==> keys[i] == allowed[i].key
    decreases |allowed|
  {
    if |allowed| == 0 then [] else [allowed[0].key] + Keys(allowed[1..])
  }

  /** The `rest_invalid_param` error; its list is of the array's keys. */
  function InvalidTemplateError(allowed: seq<AllowedTemplate>): WpError
  {
    WpError("rest_invalid_param", "template is not one of " + Implode(", ", Keys(allowed)) + ".", None)
  }

  /**
   `check_template`: accept a falsy template, the post's current template,
   a template whose requested slug is allowed, or a key of the allowed array;
   otherwise reject with `rest_invalid_param`.
   */
  function CheckTemplate(template: string, request: CheckRequest, pageTemplateSlug: int -> Option<string>,
                         allowed: seq<AllowedTemplate>): (r: Verdict)
    ensures r == Accepted <==>
      || EmptyString(template)
      || CurrentTemplate(request, pageTemplateSlug) == Some(template)
      || (request.template.Some? && exists i :: 0 <= i < |allowed| && allowed[i].slug == request.template.value)
      || (exists i :: 0 <= i < |allowed| && allowed[i].key == template)
    ensures r.Rejected? ==> r.error.code == "rest_invalid_param" && r.error == InvalidTemplateError(allowed)
  {
    if EmptyString(template) then Accepted
    else if CurrentTemplate(request, pageTemplateSlug) == Some(template) then Accepted
    else if AnySlugMatches(allowed, request.template) then Accepted
    else if template in Keys(allowed) then Accepted
    else Rejected(InvalidTemplateError(allowed))
  }

  /** A request without a post id accepts a non-falsy template only through the allowed templates. */
  lemma NoIdCreatesNoCurrentTemplate(template: string, requested: Option<string>,
                                     pageTemplateSlug: int -> Option<string>, allowed: seq<AllowedTemplate>)
    requires !EmptyString(template)
    ensures CheckTemplate(template, CheckRequest(None, requested), pageTemplateSlug, allowed) == Accepted <==>
      || AnySlugMatches(allowed, requested)
      || (exists i :: 0 <= i < |allowed| && allowed[i].key == template)
  {
  }

  /**
   The error message names the array's keys, not the slugs: for a list whose
   only entry is the "single" template under key "0", the message reads
   "template is not one of 0.".
   */
  lemma MessageListsKeys(template: string, pageTemplateSlug: int -> Option<string>)
    requires template != "0" && template != "" && template != "single"
    ensures CheckTemplate(template, CheckRequest(None, Some(template)), pageTemplateSlug,
                          [AllowedTemplate("0", "single")])
            == Rejected(WpError("rest_invalid_param", "template is not one of 0.", None))
  {
    var allowed := [AllowedTemplate("0", "single")];
    assert Keys(allowed) == ["0"];
  }
}

=== FILE: registry.dfy ===
/**
 The block-template registry: an insertion-ordered store of plugin-declared
 templates keyed by (template type, namespaced name). The process-wide
 singleton becomes an explicit immutable `Registry` value; `register`
 returns its verdict together with the next state.
 */
module BlockTemplatesRegistry {
  import opened Wrappers
  import opened Wp
  import opened Templates
  import NamePattern

  /** One stored template under its type and name. */
  datatype Entry = Entry(templateType: string, name: string, template: Template)

  /** All registered templates, in registration order. */
  datatype Registry = Registry(entries: seq<Entry>)

  /** One `name => template` pair of a per-type associative array. */
  datatype Named = Named(name: string, template: Template)

  /** The state before any registration. */
  const EmptyRegistry: Registry := Registry([])

  /** The first argument of `register`: a name, a pre-built template, or anything else. */
  datatype NameArgument = NameString(name: string) | PrebuiltTemplate(template: Template) | NotAString

  /** The `$args` bag; `None` means the key is absent. */
  datatype TemplateArgs = TemplateArgs(
    slug: Option<string>,
    path: Option<string>,
    title: Option<string>,
    description: Option<string>,
    postTypes: Option<seq<string>>,
    area: Option<string>,
    plugin: Option<string>
  )

  /** The host calls `register` makes: the active stylesheet and reading a file. */
  datatype Host = Host(stylesheet: string, readFile: string -> string)

  /** One reason per `_doing_it_wrong` diagnostic of `register`. */
  datatype RegisterError =
    | NameNotString
    | InvalidTemplateType
    | UppercaseName
    | MissingNamespace
    | AlreadyRegistered

  /** What `get_registered` returns: `false`, `null` or the template. */
  datatype Lookup = InvalidType | NotRegistered | Found(template: Template)

  /** The filters of `get_by_query`; absent keys are `[]` / `None`. */
  datatype Query = Query(
    slugIn: seq<string>,
    slugNotIn: seq<string>,
    area: Option<string>,
    postType: Option<string>
  )

  const NoFilter: Query := Query([], [], None, None)

  predicate HasKey(e: Entry, templateType: string, name: string)
  {
    e.templateType == templateType && e.name == name
  }

  /** Index of the entry stored under (templateType, name), if any. */
  function FindEntry(entries: seq<Entry>, templateType: string, name: string): (r: Option<nat>)
    ensures r.Some? ==> r.value < |entries| && HasKey(entries[r.value], templateType, name)
    ensures r.Some? ==> forall j :: 0 <= j < r.value ==> !HasKey(entries[j], templateType, name)
    ensures r.None? <==> forall j :: 0 <= j < |entries| ==> !HasKey(entries[j], templateType, name)
    decreases |entries|
  {
    if |entries| == 0 then None
    else if HasKey(entries[0], templateType, name) then Some(0)
    else match FindEntry(entries[1..], templateType, name)
      case None => None
      case Some(i) => Some(i + 1)
  }

  /** `is_registered`: false for an invalid type, otherwise whether the key is set. */
  function IsRegistered(reg: Registry, templateType: string, name: string): (r: bool)
    ensures r <==> IsTemplateType(templateType)
                   && exists i :: 0 <= i < |reg.entries| && HasKey(reg.entries[i], templateType, name)
  {
    IsTemplateType(templateType) && FindEntry(reg.entries, templateType, name).Some?
  }

  /** `get_registered`: `false` for an invalid type, `null` when absent. */
  function GetRegistered(reg: Registry, templateType: string, name: string): (r: Lookup)
    ensures !IsTemplateType(templateType) <==> r == InvalidType
    ensures r.Found? <==> IsRegistered(reg, templateType, name)
    ensures r.Found? ==> Entry(templateType, name, r.template) in reg.entries
  {
    if !IsTemplateType(templateType) then InvalidType
    else match FindEntry(reg.entries, templateType, name)
      case None => NotRegistered
      case Some(i) => Found(reg.entries[i].template)
  }

  /** The entries of one type as `name => template` pairs, in registration order. */
  function OfType(entries: seq<Entry>, templateType: string): (r: seq<Named>)
    ensures |r| <= |entries|
    ensures forall n :: n in r <==>
      exists i :: 0 <= i < |entries| && entries[i] == Entry(templateType, n.name, n.template)
    decreases |entries|
  {
    if |entries| == 0 then []
    else
      var last := entries[|entries| - 1];
      var prefix := entries[..|entries| - 1];
      var rest := OfType(prefix, templateType);
      assert forall i :: 0 <= i < |prefix| ==> prefix[i] == entries[i];
      rest + (if last.templateType == templateType then [Named(last.name, last.template)] else [])
  }

  /** `get_all_registered`: `None` models the `false` returned for an invalid type. */
  function GetAllRegistered(reg: Registry, templateType: string): (r: Option<seq<Named>>)
    ensures r.None? <==> !IsTemplateType(templateType)
    ensures r.Some? ==> forall n :: n in r.value <==> Entry(templateType, n.name, n.template) in reg.entries
  {
    if !IsTemplateType(templateType) then None else Some(OfType(reg.entries, templateType))
  }

  /** Index of the first pair of `all`, in order, whose template has slug `slug`. */
  function FirstSlugIndex(all: seq<Named>, slug: string): (r: Option<nat>)
    ensures r.Some? ==> r.value < |all| && all[r.value].template.slug == slug
    ensures r.Some? ==> forall j :: 0 <= j < r.value ==> all[j].template.slug != slug
    ensures r.None? <==> forall j :: 0 <= j < |all| ==> all[j].template.slug != slug
    decreases |all|
  {
    if |all| == 0 then None
    else if all[0].template.slug == slug then Some(0)
    else match FirstSlugIndex(all[1..], slug)
      case None => None
      case Some(i) => Some(i + 1)
  }

  /**
   `get_by_slug`: the first template of the type, in registration order,
   whose slug is `slug`; `None` models `null`.
   */
  function GetBySlug(reg: Registry, templateType: string, slug: string): (r: Option<Template>)
    ensures !IsTemplateType(templateType) ==> r.None?
    ensures r.Some? ==> r.value.slug == slug
    ensures r.Some? ==> exists name :: Entry(templateType, name, r.value) in reg.entries
  {
    match GetAllRegistered(reg, templateType)
    case None => None
    case Some(all) =>
      if |all| == 0 then None
      else match FirstSlugIndex(all, slug)
        case None => None
        case Some(i) =>
          assert Entry(templateType, all[i].name, all[i].template) in reg.entries;
          Some(all[i].template)
  }

  /**
   `get_by_slug` finds nothing exactly when no template of the type has the
   slug, and otherwise finds the earliest registered one.
   */
  lemma GetBySlugFirstMatch(reg: Registry, templateType: string, slug: string)
    requires IsTemplateType(templateType)
    ensures var all := OfType(reg.entries, templateType);
      var r := GetBySlug(reg, templateType, slug);
      && (r.None? <==> forall j :: 0 <= j < |all| ==> all[j].template.slug != slug)
      && (r.Some? ==> exists i :: 0 <= i < |all| && all[i].template == r.value
                        && forall j :: 0 <= j < i ==> all[j].template.slug != slug)
  {
  }

  /** `empty()` on the `post_type` query value, which defaults to ''. */
  predicate NoPostTypeFilter(postType: Option<string>)
  {
    postType.None? || EmptyString(postType.value)
  }

  /** Whether `get_by_query` keeps a template of the queried type. */
  predicate Keeps(templateType: string, q: Query, t: Template)
  {
    && (|q.slugIn| == 0 || t.slug in q.slugIn)
    && (|q.slugNotIn| == 0 || t.slug !in q.slugNotIn)
    && (templateType != WpTemplatePart || t.area == q.area)
    && (NoPostTypeFilter(q.postType) || (t.postTypes.Some? && q.postType.value in t.postTypes.value))
  }

  /** The loop of `get_by_query`: unset every pair a filter rejects. */
  function Select(all: seq<Named>, templateType: string, q: Query): (r: seq<Named>)
    ensures |r| <= |all|
    ensures forall n :: n in r <==> n in all && Keeps(templateType, q, n.template)
    decreases |all|
  {
    if |all| == 0 then []
    else
      var rest := Select(all[1..], templateType, q);
      assert forall n :: n in all <==> n == all[0] || n in all[1..];
      if Keeps(templateType, q, all[0].template) then [all[0]] + rest else rest
  }

  /** `get_by_query`: the registered templates of a type that pass every filter. */
  function GetByQuery(reg: Registry, templateType: string, q: Query): (r: seq<Named>)
    ensures !IsTemplateType(templateType) ==> r == []
    ensures forall n :: n in r <==>
      (IsTemplateType(templateType) && Entry(templateType, n.name, n.template) in reg.entries
       && Keeps(templateType, q, n.template))
    ensures IsTemplateType(templateType) ==> r == Select(OfType(reg.entries, templateType), templateType, q)
  {
    match GetAllRegistered(reg, templateType)
    case None => []
    case Some(all) => if |all| == 0 then [] else Select(all, templateType, q)
  }

  /** The name `register` validates: the string itself or a pre-built template's `name`. */
  function RegisteredName(arg: NameArgument): Option<string>
  {
    match arg
    case NameString(name) => Some(name)
    case PrebuiltTemplate(t) => t.name
    case NotAString => None
  }

  /** The template `register` builds from `$args` when it was given a name. */
  function BuildTemplate(templateType: string, args: TemplateArgs, host: Host): (t: Template)
    ensures t.source == "plugin" && t.origin == Some("plugin")
    ensures t.status == "publish" && t.hasThemeFile && !t.isCustom && t.author.None?
    ensures t.id == host.stylesheet + "//" + t.slug && t.theme == host.stylesheet
    ensures t.templateType == templateType && t.name.None?
    ensures t.slug == (if args.slug.Some? then args.slug.value else "")
    ensures t.content == (if args.path.Some? then host.readFile(args.path.value) else "")
    ensures t.plugin == Some(if args.plugin.Some? then args.plugin.value else "")
    ensures t.title == (if args.title.Some? then args.title.value else "")
    ensures t.description == (if args.description.Some? then args.description.value else "")
    ensures t.postTypes == args.postTypes
    ensures t.area.Some?
    ensures t.area.value != "" ==> templateType == WpTemplatePart && args.area == t.area
    ensures templateType == WpTemplatePart && args.area.Some? ==> t.area == args.area
  {
    var slug := if args.slug.Some? then args.slug.value else "";
    Template(
      name := None,
      id := host.stylesheet + "//" + slug,
      theme := host.stylesheet,
      plugin := Some(if args.plugin.Some? then args.plugin.value else ""),
      author := None,
      content := if args.path.Some? then host.readFile(args.path.value) else "",
      source := "plugin",
      slug := slug,
      templateType := templateType,
      title := if args.title.Some? then args.title.value else "",
      description := if args.description.Some? then args.description.value else "",
      status := "publish",
      hasThemeFile := true,
      origin := Some("plugin"),
      isCustom := false,
      postTypes := args.postTypes,
      area := Some(if templateType == WpTemplatePart && args.area.Some? then args.area.value else "")
    )
  }

  /**
   `register`: validates in order (name is a string, type is known, no
   uppercase, namespaced pattern, not yet registered) and stops at the first
   failure with the registry unchanged; on success appends the template.
   */
  function Register(reg: Registry, arg: NameArgument, templateType: string, args: TemplateArgs, host: Host)
    : (out: (Result<Template, RegisterError>, Registry))
    ensures out.0.Failure? ==> out.1 == reg
    ensures out.0.Success? ==> RegisteredName(arg).Some?
    ensures out.0.Success? ==>
      var name := RegisteredName(arg).value;
      && IsRegistered(out.1, templateType, name)
      && GetRegistered(out.1, templateType, name) == Found(out.0.value)
      && !IsRegistered(reg, templateType, name)
    ensures out.0.Success? && arg.PrebuiltTemplate? ==> out.0.value == arg.template
    ensures out.0.Success? && !arg.PrebuiltTemplate? ==> out.0.value == BuildTemplate(templateType, args, host)
  {
    match RegisteredName(arg)
    case None => (Failure(NameNotString), reg)
    case Some(name) =>
      if !IsTemplateType(templateType) then (Failure(InvalidTemplateType), reg)
      else if HasUppercase(name) then (Failure(UppercaseName), reg)
      else if !NamePattern.Matches(name) then (Failure(MissingNamespace), reg)
      else if IsRegistered(reg, templateType, name) then (Failure(AlreadyRegistered), reg)
      else
        var t := if arg.PrebuiltTemplate? then arg.template else BuildTemplate(templateType, args, host);
        var entries := reg.entries + [Entry(templateType, name, t)];
        assert forall j :: 0 <= j < |reg.entries| ==> !HasKey(entries[j], templateType, name) by {
          forall j | 0 <= j < |reg.entries|
            ensures !HasKey(entries[j], templateType, name)
          {
            assert entries[j] == reg.entries[j];
          }
        }
        assert HasKey(entries[|reg.entries|], templateType, name);
        assert FindEntry(entries, templateType, name) == Some(|reg.entries|);
        (Success(t), Registry(entries))
  }

  /** The registry invariant `register` maintains. */
  ghost predicate Wf(reg: Registry)
  {
    && (forall i :: 0 <= i < |reg.entries| ==>
          && IsTemplateType(reg.entries[i].templateType)
          && NamePattern.Matches(reg.entries[i].name))
    && (forall i, j :: 0 <= i < j < |reg.entries| ==>
          !HasKey(reg.entries[j], reg.entries[i].templateType, reg.entries[i].name))
  }
}

=== FILE: registry_properties.dfy ===
/** Properties of `register` and of the registry's read operations. */
module RegistryProperties {
  import opened Wrappers
  import opened Wp
  import opened Templates
  import NamePattern
  import opened BlockTemplatesRegistry

  /** A name with an uppercase letter is never registered, whatever else holds. */
  lemma UppercaseNameRejected(reg: Registry, name: string, templateType: string, args: TemplateArgs, host: Host)
    requires HasUppercase(name)
    ensures var out := Register(reg, NameString(name), templateType, args, host);
      && out.1 == reg
      && out.0 == Failure(if IsTemplateType(templateType) then UppercaseName else InvalidTemplateType)
  {
  }

  /**
   A lowercase string name that does not have the namespace//slug shape
   (allowing one trailing newline) is rejected with the namespace diagnostic.
   */
  lemma MalformedNameRejected(reg: Registry, name: string, templateType: string, args: TemplateArgs, host: Host)
    requires IsTemplateType(templateType) && !HasUppercase(name)
    requires !NamePattern.Namespaced(name)
    requires |name| > 0 && name[|name| - 1] == '\n' ==> !NamePattern.Namespaced(name[..|name| - 1])
    ensures Register(reg, NameString(name), templateType, args, host) == (Failure(MissingNamespace), reg)
  {
    NamePattern.MatchesExactlyIffNamespaced(name);
    if |name| > 0 {
      NamePattern.MatchesExactlyIffNamespaced(name[..|name| - 1]);
    }
  }

  /**
   `register` succeeds exactly when the name is a string, the type is known,
   the name matches the pattern and the key is free; the uppercase check only
   chooses which diagnostic a rejected name gets.
   */
  lemma RegisterSucceedsIff(reg: Registry, arg: NameArgument, templateType: string, args: TemplateArgs, host: Host)
    ensures Register(reg, arg, templateType, args, host).0.Success? <==>
      && RegisteredName(arg).Some?
      && IsTemplateType(templateType)
      && NamePattern.Matches(RegisteredName(arg).value)
      && !IsRegistered(reg, templateType, RegisteredName(arg).value)
  {
    var name := RegisteredName(arg);
    if name.Some? && NamePattern.Matches(name.value) && HasUppercase(name.value) {
      NamePattern.AcceptedNameIsLowercase(name.value);
    }
  }

  /**
   A pre-built template without a `name` property fails the first check,
   since `register` reads the name from the template object.
   */
  lemma PrebuiltWithoutNameRejected(reg: Registry, t: Template, templateType: string, args: TemplateArgs, host: Host)
    requires t.name.None?
    ensures Register(reg, PrebuiltTemplate(t), templateType, args, host) == (Failure(NameNotString), reg)
  {
  }

  /** Registering the same key twice: the second call fails and the first template stays. */
  lemma DuplicateRejected(reg: Registry, name: string, templateType: string,
                          args1: TemplateArgs, args2: TemplateArgs, host: Host)
    requires Register(reg, NameString(name), templateType, args1, host).0.Success?
    ensures var first := Register(reg, NameString(name), templateType, args1, host);
      var second := Register(first.1, NameString(name), templateType, args2, host);
      && second == (Failure(AlreadyRegistered), first.1)
      && GetRegistered(second.1, templateType, name) == Found(first.0.value)
  {
  }

  /**
   Nothing else changes: after a successful `register` of (templateType,
   name), every other key reads as before.
   */
  lemma {:induction false} RegisterFrame(reg: Registry, arg: NameArgument, templateType: string,
                                         args: TemplateArgs, host: Host, otherType: string, otherName: string)
    requires Register(reg, arg, templateType, args, host).0.Success?
    requires otherType != templateType || Some(otherName) != RegisteredName(arg)
    ensures var next := Register(reg, arg, templateType, args, host).1;
      && IsRegistered(next, otherType, otherName) == IsRegistered(reg, otherType, otherName)
      && GetRegistered(next, otherType, otherName) == GetRegistered(reg, otherType, otherName)
  {
    var next := Register(reg, arg, templateType, args, host).1;
    var name := RegisteredName(arg).value;
    assert next.entries == reg.entries + [next.entries[|reg.entries|]];
    assert next.entries[|reg.entries|].templateType == templateType;
    assert next.entries[|reg.entries|].name == name;
    FindEntryAppend(reg.entries, next.entries[|reg.entries|], otherType, otherName);
  }

  /** Appending an entry with another key leaves the first-match lookup unchanged. */
  lemma FindEntryAppend(entries: seq<Entry>, e: Entry, templateType: string, name: string)
    requires !HasKey(e, templateType, name)
    ensures FindEntry(entries + [e], templateType, name) == FindEntry(entries, templateType, name)
  {
    var all := entries + [e];
    assert forall j :: 0 <= j < |entries| ==> all[j] == entries[j];
    match FindEntry(entries, templateType, name)
    case None =>
      assert forall j :: 0 <= j < |all| ==> !HasKey(all[j], templateType, name);
    case Some(i) =>
      var r := FindEntry(all, templateType, name);
      assert HasKey(all[i], templateType, name);
      assert r.Some?;
      assert r.value <= i;
      assert r.value >= i;
  }

  /**
   Registration appends to the per-type list: `get_all_registered` of the
   registered type gains the new pair at the end, the other type is unchanged.
   */
  lemma {:induction false} RegisterAppends(reg: Registry, arg: NameArgument, templateType: string,
                                           args: TemplateArgs, host: Host, someType: string)
    requires Register(reg, arg, templateType, args, host).0.Success?
    requires IsTemplateType(someType)
    ensures var out := Register(reg, arg, templateType, args, host);
      GetAllRegistered(out.1, someType) ==
        Some(OfType(reg.entries, someType)
             + (if someType == templateType then [Named(RegisteredName(arg).value, out.0.value)] else []))
  {
    var out := Register(reg, arg, templateType, args, host);
    var entries := out.1.entries;
    assert entries[..|entries| - 1] == reg.entries;
  }

  /** Appending pairs after a slug's first occurrence does not move that occurrence. */
  lemma FirstSlugIndexAppend(before: seq<Named>, extra: seq<Named>, slug: string)
    requires FirstSlugIndex(before, slug).Some?
    ensures FirstSlugIndex(before + extra, slug) == FirstSlugIndex(before, slug)
  {
    var all := before + extra;
    assert forall j :: 0 <= j < |before| ==> all[j] == before[j];
    var i := FirstSlugIndex(before, slug).value;
    assert all[i].template.slug == slug;
  }

  /** The first template registered with a slug keeps winning `get_by_slug`. */
  lemma {:induction false} GetBySlugStable(reg: Registry, arg: NameArgument, templateType: string,
                                           args: TemplateArgs, host: Host, slug: string)
    requires Register(reg, arg, templateType, args, host).0.Success?
    requires GetBySlug(reg, templateType, slug).Some?
    ensures GetBySlug(Register(reg, arg, templateType, args, host).1, templateType, slug)
            == GetBySlug(reg, templateType, slug)
  {
    var out := Register(reg, arg, templateType, args, host);
    RegisterAppends(reg, arg, templateType, args, host, templateType);
    var before := OfType(reg.entries, templateType);
    var extra := [Named(RegisteredName(arg).value, out.0.value)];
    assert GetAllRegistered(out.1, templateType) == Some(before + extra);
    FirstSlugIndexAppend(before, extra, slug);
    var i := FirstSlugIndex(before, slug).value;
    assert (before + extra)[i] == before[i];
  }

  /** A template registered with a slug no earlier template of its type has is what `get_by_slug` finds. */
  lemma {:induction false} GetBySlugFreshSlug(reg: Registry, arg: NameArgument, templateType: string,
                                              args: TemplateArgs, host: Host)
    requires Register(reg, arg, templateType, args, host).0.Success?
    requires var t := Register(reg, arg, templateType, args, host).0.value;
      GetBySlug(reg, templateType, t.slug).None?
    ensures var out := Register(reg, arg, templateType, args, host);
      GetBySlug(out.1, templateType, out.0.value.slug) == Some(out.0.value)
  {
    var out := Register(reg, arg, templateType, args, host);
    var t := out.0.value;
    RegisterAppends(reg, arg, templateType, args, host, templateType);
    var before := OfType(reg.entries, templateType);
    var after := OfType(out.1.entries, templateType);
    assert after == before + [Named(RegisteredName(arg).value, t)];
    assert FirstSlugIndex(before, t.slug).None?;
    assert forall j :: 0 <= j < |before| ==> after[j] == before[j];
    var k := FirstSlugIndex(after, t.slug);
    assert after[|before|].template.slug == t.slug;
    assert k.Some? && k.value == |before|;
  }

  /** `register` keeps every key unique and every stored name well-formed. */
  lemma RegisterPreservesWf(reg: Registry, arg: NameArgument, templateType: string, args: TemplateArgs, host: Host)
    requires Wf(reg)
    ensures Wf(Register(reg, arg, templateType, args, host).1)
  {
    var out := Register(reg, arg, templateType, args, host);
    if out.0.Success? {
      RegisterSucceedsIff(reg, arg, templateType, args, host);
      var name := RegisteredName(arg).value;
      assert out.1.entries == reg.entries + [Entry(templateType, name, out.0.value)];
      AppendFreshPreservesWf(reg, Entry(templateType, name, out.0.value));
    }
  }

  /** Appending a valid entry under a key no entry has keeps the registry well-formed. */
  lemma AppendFreshPreservesWf(reg: Registry, e: Entry)
    requires Wf(reg)
    requires IsTemplateType(e.templateType) && NamePattern.Matches(e.name)
    requires FindEntry(reg.entries, e.templateType, e.name).None?
    ensures Wf(Registry(reg.entries + [e]))
  {
    var entries := reg.entries + [e];
    assert forall j :: 0 <= j < |reg.entries| ==> entries[j] == reg.entries[j];
  }

  /** In a well-formed registry, every registered name is namespace//slug (up to a trailing newline). */
  lemma RegisteredNamesAreNamespaced(reg: Registry, templateType: string, name: string)
    requires Wf(reg) && IsRegistered(reg, templateType, name)
    ensures NamePattern.Matches(name)
    ensures NamePattern.MatchesExactly(name) || NamePattern.MatchesExactly(name[..|name| - 1])
  {
  }

  /** The filter loop works pair by pair, left to right: it keeps the order and never repeats a pair. */
  lemma {:induction false} SelectAppend(a: seq<Named>, b: seq<Named>, templateType: string, q: Query)
    ensures Select(a + b, templateType, q) == Select(a, templateType, q) + Select(b, templateType, q)
    decreases |a|
  {
    if |a| == 0 {
      assert a + b == b;
    } else {
      var ab := a + b;
      assert ab[0] == a[0] && ab[1..] == a[1..] + b;
      SelectAppend(a[1..], b, templateType, q);
    }
  }

  /** One pair: kept exactly when it passes every filter. */
  lemma SelectSingle(n: Named, templateType: string, q: Query)
    ensures Select([n], templateType, q) == if Keeps(templateType, q, n.template) then [n] else []
  {
    assert [n][1..] == [];
  }

  /**
   A registration extends the result of every query of its type at the end:
   by the new template when it passes the filters, by nothing otherwise.
   */
  lemma RegisterExtendsQuery(reg: Registry, arg: NameArgument, templateType: string,
                             args: TemplateArgs, host: Host, q: Query)
    requires Register(reg, arg, templateType, args, host).0.Success?
    ensures var out := Register(reg, arg, templateType, args, host);
      GetByQuery(out.1, templateType, q)
      == GetByQuery(reg, templateType, q)
         + (if Keeps(templateType, q, out.0.value) then [Named(RegisteredName(arg).value, out.0.value)] else [])
  {
    var out := Register(reg, arg, templateType, args, host);
    RegisterSucceedsIff(reg, arg, templateType, args, host);
    RegisterAppends(reg, arg, templateType, args, host, templateType);
    var n := Named(RegisteredName(arg).value, out.0.value);
    SelectAppend(OfType(reg.entries, templateType), [n], templateType, q);
    SelectSingle(n, templateType, q);
  }

  /** A string name with an unknown type is rejected for the type, and anything but a name fails first. */
  lemma EarlyRejections(reg: Registry, arg: NameArgument, templateType: string, args: TemplateArgs, host: Host)
    ensures RegisteredName(arg).None? ==>
      Register(reg, arg, templateType, args, host) == (Failure(NameNotString), reg)
    ensures RegisteredName(arg).Some? && !IsTemplateType(templateType) ==>
      Register(reg, arg, templateType, args, host) == (Failure(InvalidTemplateType), reg)
  {
  }

  /** The registry before any registration is well-formed. */
  lemma EmptyRegistryWf()
    ensures Wf(EmptyRegistry)
  {
  }

  /**
   Registered template parts always have a string area, and a query without
   an area filters against `null`, so such a query returns none of them.
   */
  lemma AreaLessPartQueryDropsStringAreas(reg: Registry, q: Query)
    requires q.area.None?
    ensures forall n :: n in GetByQuery(reg, WpTemplatePart, q) ==> n.template.area.None?
  {
  }

  /** A template part the registry built itself is never returned by an area-less query. */
  lemma BuiltPartNeverQueriedWithoutArea(reg: Registry, name: string, args: TemplateArgs, host: Host, q: Query)
    requires Register(reg, NameString(name), WpTemplatePart, args, host).0.Success?
    requires q.area.None?
    ensures var out := Register(reg, NameString(name), WpTemplatePart, args, host);
      Named(name, out.0.value) !in GetByQuery(out.1, WpTemplatePart, q)
  {
  }

  /** Each filter of `get_by_query` holds of every template it returns. */
  lemma QueryFiltersHold(reg: Registry, templateType: string, q: Query)
    ensures var r := GetByQuery(reg, templateType, q);
      && (forall n :: n in r ==> n.template.slug !in q.slugNotIn)
      && (|q.slugIn| > 0 ==> forall n :: n in r ==> n.template.slug in q.slugIn)
      && (!NoPostTypeFilter(q.postType) ==>
            forall n :: n in r ==> n.template.postTypes.Some? && q.postType.value in n.template.postTypes.value)
      && (templateType == WpTemplatePart ==> forall n :: n in r ==> n.template.area == q.area)
  {
  }

  /** A list whose every pair passes the filters comes through the loop unchanged. */
  lemma {:induction false} SelectAllKept(all: seq<Named>, templateType: string, q: Query)
    requires forall i :: 0 <= i < |all| ==> Keeps(templateType, q, all[i].template)
    ensures Select(all, templateType, q) == all
    decreases |all|
  {
    if |all| > 0 {
      assert Keeps(templateType, q, all[0].template);
      SelectAllKept(all[1..], templateType, q);
      assert [all[0]] + all[1..] == all;
    }
  }

  /** With no filters, `get_by_query` returns every registered template of the type, in order. */
  lemma UnfilteredQueryReturnsAll(reg: Registry, templateType: string)
    requires templateType == WpTemplate
    ensures GetByQuery(reg, templateType, NoFilter) == GetAllRegistered(reg, templateType).value
  {
    SelectAllKept(OfType(reg.entries, templateType), templateType, NoFilter);
  }

  /**
   A template registered by name with `post_types` listing `postType` is the
   last result of a `wp_template` query filtered on that post type.
   */
  lemma RegisteredPostTypeSurvivesQuery(reg: Registry, name: string, args: TemplateArgs, host: Host,
                                        postType: string)
    requires Register(reg, NameString(name), WpTemplate, args, host).0.Success?
    requires args.postTypes.Some? && postType in args.postTypes.value
    ensures var out := Register(reg, NameString(name), WpTemplate, args, host);
      var found := GetByQuery(out.1, WpTemplate, Query([], [], None, Some(postType)));
      |found| > 0 && found[|found| - 1] == Named(name, out.0.value)
  {
    RegisterExtendsQuery(reg, NameString(name), WpTemplate, args, host, Query([], [], None, Some(postType)));
  }
}

=== FILE: templates.dfy ===
/** The block-template entity shared by the registry and the REST layer. */
module Templates {
  import opened Wrappers

  /** The two template post types. */
  const WpTemplate: string := "wp_template"
  const WpTemplatePart: string := "wp_template_part"

  predicate IsTemplateType(t: string)
  {
    t == WpTemplate || t == WpTemplatePart
  }

  /**
   A `WP_Block_Template` object. Properties that PHP may leave `null` are
   `Option`s:
   - `name` is the property `register` reads from a pre-built template;
     templates built by the registry never set it;
   - `postTypes` is `None` when the property is not an array (the registry
     stores `''` when no post types were given);
   - `author` is a user id.
   */
  datatype Template = Template(
    name: Option<string>,
    id: string,
    theme: string,
    plugin: Option<string>,
    author: Option<int>,
    content: string,
    source: string,
    slug: string,
    templateType: string,
    title: string,
    description: string,
    status: string,
    hasThemeFile: bool,
    origin: Option<string>,
    isCustom: bool,
    postTypes: Option<seq<string>>,
    area: Option<string>
  )
}

=== FILE: templates_controller.dfy ===
/**
 The decision rules of the 6.6 templates REST controller: original-source
 classification, author text, the fallback-hierarchy loop, source-tagged id
 resolution and the clone-then-patch serialisation of plugin templates.
 Host lookups are fields of `Collaborators`.
 */
module TemplatesController {
  import opened Wrappers
  import opened Wp
  import opened Templates
  import opened BlockTemplatesRegistry
  import IdParts

  /** Who supplied a template, as reported in `original_source`. */
  datatype OriginalSource = ThemeSource | PluginSource | SiteSource | UserSource
  {
    function Label(): string
    {
      match this
      case ThemeSource => "theme"
      case PluginSource => "plugin"
      case SiteSource => "site"
      case UserSource => "user"
    }
  }

  /**
   The host calls the controller makes, as uninterpreted values:
   - `themeName`: `wp_get_theme( $theme )->get( 'Name' )`;
   - `plugins`: `get_plugins()`, plugin file => plugin `Name`;
   - `pluginFile`: `plugin_basename( sanitize_text_field( … ) )`;
   - `blogName`: `get_bloginfo( 'name' )`;
   - `users`: user id => `display_name` for the ids `get_user_by` resolves;
   - `fileTemplate`, `blockTemplate`: `get_block_file_template` and
     `get_block_template` for (id, post type);
   - `resolve`: `resolve_block_template` for (slug, hierarchy);
   - `serialize`: the parent class's `prepare_item_for_response`, as the
     response data it builds.
   */
  datatype Collaborators = Collaborators(
    themeName: string -> string,
    plugins: map<string, string>,
    pluginFile: string -> string,
    blogName: string,
    users: map<int, string>,
    fileTemplate: (string, string) -> Option<Template>,
    blockTemplate: (string, string) -> Option<Template>,
    resolve: (string, seq<string>) -> Option<Template>,
    serialize: Template -> map<string, string>
  )

  /** `empty( $template->origin )` */
  predicate EmptyOrigin(origin: Option<string>)
  {
    origin.None? || EmptyString(origin.value)
  }

  /** `empty( $template->author )` */
  predicate EmptyAuthor(author: Option<int>)
  {
    author.None? || author.value == 0
  }

  /**
   `get_wp_templates_original_source_field`: for the two template types,
   theme first, then plugin, then site; anything else is a user template.
   */
  function ClassifyOriginalSource(t: Template): (r: OriginalSource)
    ensures !IsTemplateType(t.templateType) ==> r == UserSource
    ensures r == ThemeSource <==>
      && IsTemplateType(t.templateType) && t.hasThemeFile
      && (t.origin == Some("theme") || (EmptyOrigin(t.origin) && t.source in ["theme", "custom"]))
    ensures r == PluginSource <==> IsTemplateType(t.templateType) && t.origin == Some("plugin")
    ensures r == SiteSource <==>
      && IsTemplateType(t.templateType) && !t.hasThemeFile && t.source == "custom"
      && EmptyAuthor(t.author) && t.origin != Some("plugin")
  {
    if IsTemplateType(t.templateType) then
      if t.hasThemeFile
         && (t.origin == Some("theme") || (EmptyOrigin(t.origin) && t.source in ["theme", "custom"]))
      then ThemeSource
      else if t.origin == Some("plugin") then PluginSource
      else if !t.hasThemeFile && t.source == "custom" && EmptyAuthor(t.author) then SiteSource
      else UserSource
    else UserSource
  }

  const UnknownAuthor: string := "Unknown author"

  /** The `get_plugins()` key looked up for a plugin template: "$plugin/$plugin.php" when `plugin` is set. */
  function PluginKey(t: Template, c: Collaborators): string
  {
    c.pluginFile((if t.plugin.Some? then t.plugin.value + "/" + t.plugin.value else t.theme) + ".php")
  }

  /** `get_wp_templates_author_text_field`: human-readable author per classification. */
  function AuthorText(t: Template, c: Collaborators): (r: string)
    ensures ClassifyOriginalSource(t) == ThemeSource ==>
      var name := c.themeName(t.theme);
      (r == name && !EmptyString(name)) || (r == t.theme && EmptyString(name))
    ensures ClassifyOriginalSource(t) == PluginSource ==>
      var key := PluginKey(t, c);
      || (key in c.plugins && !EmptyString(c.plugins[key]) && r == c.plugins[key])
      || ((key !in c.plugins || EmptyString(c.plugins[key])) && r == t.theme)
    ensures ClassifyOriginalSource(t) == SiteSource ==> r == c.blogName
    ensures ClassifyOriginalSource(t) == UserSource ==>
      || (t.author.Some? && t.author.value in c.users && r == c.users[t.author.value])
      || ((t.author.None? || t.author.value !in c.users) && r == UnknownAuthor)
  {
    match ClassifyOriginalSource(t)
    case ThemeSource =>
      var name := c.themeName(t.theme);
      if EmptyString(name) then t.theme else name
    case PluginSource =>
      var key := PluginKey(t, c);
      if key !in c.plugins || EmptyString(c.plugins[key]) then t.theme else c.plugins[key]
    case SiteSource => c.blogName
    case UserSource =>
      if t.author.Some? && t.author.value in c.users then c.users[t.author.value] else UnknownAuthor
  }

  /** The fallback loop's exit test: a template with non-empty content. */
  predicate HasContent(t: Option<Template>)
  {
    t.Some? && !EmptyString(t.value.content)
  }

  /** `array_shift`, which leaves an empty array empty. */
  function Shift(h: seq<string>): (r: seq<string>)
    ensures |h| > 0 ==> r == h[1..]
    ensures |h| == 0 ==> r == []
  {
    if |h| == 0 then [] else h[1..]
  }

  /**
   The do-while loop of `get_template_fallback`: resolve against the current
   hierarchy, drop its head, and repeat while the hierarchy is non-empty and
   the content is empty. `rounds` counts iterations.
   */
  method TemplateFallback(slug: string, hierarchy: seq<string>, resolve: (string, seq<string>) -> Option<Template>)
    returns (fallback: Option<Template>, rounds: nat)
    ensures 1 <= rounds && (rounds == 1 || rounds <= |hierarchy|)
    ensures rounds - 1 <= |hierarchy| && fallback == resolve(slug, hierarchy[rounds - 1..])
    ensures HasContent(fallback) || rounds >= |hierarchy|
    ensures forall j :: 0 <= j < rounds - 1 ==> !HasContent(resolve(slug, hierarchy[j..]))
  {
    var h := hierarchy;
    fallback := resolve(slug, h);
    h := Shift(h);
    rounds := 1;
    while |h| > 0 && !HasContent(fallback)
      invariant 1 <= rounds && (rounds == 1 || rounds <= |hierarchy|)
      invariant h == if |hierarchy| == 0 then [] else hierarchy[rounds..]
      invariant rounds - 1 <= |hierarchy| && fallback == resolve(slug, hierarchy[rounds - 1..])
      invariant forall j :: 0 <= j < rounds - 1 ==> !HasContent(resolve(slug, hierarchy[j..]))
      decreases |h|
    {
      fallback := resolve(slug, h);
      h := Shift(h);
      rounds := rounds + 1;
    }
  }

  /** The `id` and `source` parameters of a single-template request. */
  datatype ItemRequest = ItemRequest(id: string, source: Option<string>)

  /** The 404 error `get_item` returns when no template is found. */
  const TemplateNotFound: WpError := WpError("rest_template_not_found", "No templates exist with that id.", Some(404))

  /**
   The source dispatch of `get_item`: theme files for `source=theme`, the
   registry's slug lookup on the second "//" piece for `source=plugin`, the
   merged lookup otherwise.
   */
  function LookupItem(reg: Registry, postType: string, request: ItemRequest, c: Collaborators): (r: Option<Template>)
    ensures request.source == Some("theme") ==> r == c.fileTemplate(request.id, postType)
    ensures request.source == Some("plugin") && r.Some? ==>
      && IdParts.PluginSlug(request.id).Some?
      && r.value.slug == IdParts.PluginSlug(request.id).value
      && exists name :: Entry(postType, name, r.value) in reg.entries
    ensures request.source == Some("plugin") && !IdParts.ContainsSeparator(request.id) ==> r.None?
    ensures request.source == Some("plugin") && IdParts.PluginSlug(request.id).Some?
            ==> r == GetBySlug(reg, postType, IdParts.PluginSlug(request.id).value)
    ensures request.source != Some("theme") && request.source != Some("plugin")
            ==> r == c.blockTemplate(request.id, postType)
  {
    if request.source == Some("theme") then c.fileTemplate(request.id, postType)
    else if request.source == Some("plugin") then
      match IdParts.PluginSlug(request.id)
      case None => None
      case Some(slug) => GetBySlug(reg, postType, slug)
    else c.blockTemplate(request.id, postType)
  }

  /** The template fields the plugin branch of `prepare_item_for_response` overwrites. */
  const PatchedFields: set<string> := {"origin", "author_text", "original_source"}

  /**
   The template the parent serializer receives: a clone with `origin` set to
   "theme" for a plugin template, the item itself otherwise.
   */
  function SerializerInput(item: Template): (clone: Template)
    ensures clone.origin != Some("plugin")
    ensures clone.(origin := item.origin) == item
    ensures item.origin == Some("plugin") ==> clone.origin == Some("theme")
  {
    if item.origin == Some("plugin") then item.(origin := Some("theme")) else item
  }

  /**
   `prepare_item_for_response` without links: non-plugin items go straight to
   the parent; for a plugin item the parent serializes the clone and the
   requested `origin`, `author_text` and `original_source` fields are then
   recomputed from the original item.
   */
  function PrepareItem(item: Template, fields: set<string>, c: Collaborators): (data: map<string, string>)
    ensures item.origin != Some("plugin") ==> data == c.serialize(item)
    ensures item.origin == Some("plugin") ==>
      var parent := c.serialize(SerializerInput(item));
      && ("origin" in fields ==> "origin" in data && data["origin"] == "plugin")
      && ("author_text" in fields ==> "author_text" in data && data["author_text"] == AuthorText(item, c))
      && ("original_source" in fields ==>
            "original_source" in data
            && data["original_source"] == (if IsTemplateType(item.templateType) then "plugin" else "user"))
      && (forall k :: k in parent && (k !in PatchedFields || k !in fields) ==> k in data && data[k] == parent[k])
      && (forall k :: k in data ==> k in parent || (k in PatchedFields && k in fields))
  {
    if item.origin != Some("plugin") then c.serialize(item)
    else
      var data := c.serialize(SerializerInput(item));
      var data := if "origin" in fields then data["origin" := "plugin"] else data;
      var data := if "author_text" in fields then data["author_text" := AuthorText(item, c)] else data;
      if "original_source" in fields
      then data["original_source" := ClassifyOriginalSource(item).Label()]
      else data
  }

  /** `get_item`: look the template up and serialize it, or answer 404. */
  function GetItem(reg: Registry, postType: string, request: ItemRequest, fields: set<string>, c: Collaborators)
    : (r: Result<map<string, string>, WpError>)
    ensures r.Failure? <==> LookupItem(reg, postType, request, c).None?
    ensures r.Failure? ==> r.error == TemplateNotFound && r.error.status == Some(404)
    ensures r.Success? ==> r.value == PrepareItem(LookupItem(reg, postType, request, c).value, fields, c)
  {
    match LookupItem(reg, postType, request, c)
    case None => Failure(TemplateNotFound)
    case Some(t) => Success(PrepareItem(t, fields, c))
  }
}

=== FILE: wp.dfy ===
/**
 Host-language and host-framework primitives the core relies on: PHP's
 `empty()` on strings and the framework's error value.
 */
module Wp {
  import opened Wrappers

  /** PHP `empty()` on a string: true for "" and for "0". */
  predicate EmptyString(s: string)
  {
    s == "" || s == "0"
  }

  /** A character in the class `[A-Z]`. */
  predicate IsAsciiUpper(c: char)
  {
    'A' <= c <= 'Z'
  }

  /** `preg_match('/[A-Z]+/', s)` succeeds. */
  predicate HasUppercase(s: string)
  {
    exists i :: 0 <= i < |s| && IsAsciiUpper(s[i])
  }

  /** A `WP_Error`: a machine-readable code, a message and the HTTP status in its data, if any. */
  datatype WpError = WpError(code: string, message: string, status: Option<int>)

  /** Joins `parts` with `glue`, as PHP's `implode`. */
  function Implode(glue: string, parts: seq<string>): (r: string)
    ensures |parts| == 0 ==> r == ""
    ensures |parts| == 1 ==> r == parts[0]
    decreases |parts|
  {
    if |parts| == 0 then ""
    else if |parts| == 1 then parts[0]
    else parts[0] + glue + Implode(glue, parts[1..])
  }
}

=== FILE: wrappers.dfy ===
/** `Option` and `Result`, used across the model. */
module Wrappers {

  /** A value that may be absent; `None` stands for PHP's `null`. */
  datatype Option<+T> = None | Some(value: T)

  /** A value or an error. */
  datatype Result<+R, +E> = Success(value: R) | Failure(error: E)
}
